=== FILE: README.md ===
# A Dafny model of a swarm file-sharing peer

This project is a Dafny model of the protocol logic of a Java peer-to-peer
file-sharing program. Each peer process holds the following state:

- a bitfield of the pieces it holds;
- the chunk store for those pieces;
- a `PeerData` record per peer of the swarm;
- a `PeerConnection` record per open connection;
- a counter of the peers known to hold the whole file.

The peer exchanges length-prefixed messages with the other peers. These are
CHOKE, UNCHOKE, INTERESTED, NOT_INTERESTED, HAVE, BITFIELD, REQUEST, PIECE and
EXIT. Every process stops once the counter reaches the swarm size.

The model has one module per component, all as pure functions over immutable
records:

- `JavaTypes` (java_types.dfy): the Java byte and `int`, and the big-endian
  codec of `ByteBuffer.putInt`/`getInt`.
- `MessageTypes` (message_types.dfy): the message-type enumeration and its
  ASCII code byte.
- `Wire` (wire.dfy):
  - the 32-byte handshake;
  - the frame built by `constructMessage`;
  - the BITFIELD, PIECE, HAVE and REQUEST payloads;
  - the frame reader of `Message.run`;
  - the hand-written index loop of the PIECE handler.
- `Pieces` (pieces.dfy): the piece count, the chunking of `chopFileIntoPieces`,
  and the reassembly of `updatePeerFileStatus`.
- `Swarm` (swarm.dfy):
  - the `PeerData`, `PeerConnection` and `PeerConfiguration` records;
  - the effects a step has on the outside world (messages sent, sockets
    closed, the file written);
  - the start-up that fills the local bitfield and chunk store.
- `Interest` (interest.dfy): the interest rule and the request candidates,
  including the cases where they throw.
- `Handlers` (handlers.dfy): every `handle*Message` transition and the
  dispatch of `handleReceivedMessage`. Each is a function from a state to a
  new state, the messages it sends, and how the thread ended: running,
  crashed by an exception, or exited.
- `Session` (session.dfy): the per-connection thread `Message.run`.
- `Neighbours` (choke.dfy): the choke/unchoke helpers of `PeerHandler` and
  one pass of `ChokeUnchokeHandler`.
- `Optimistic` (optimistic.dfy): one pass of `OptimisticUnchokeHandler`.
- `Handshakes` (handshake.dfy): both sides of the handshake, and the
  registration of a connection.
- `Transfer` (transfer.dfy): end-to-end lemmas.
  - A REQUEST is served.
  - A PIECE frame is stored.
  - Pieces delivered in any order, with repeats, reassemble the owner's
    file.
- `Findings` (findings.dfy): three defects of the code (the first with two
  consequences), each shown on the definition as written and set beside a
  corrected definition.

Nothing outside the process is modelled directly; each such thing becomes a
parameter:

- **Map iteration order.** A `ConcurrentHashMap` iteration order is passed
  in as `order: seq<Int32>`.
- **Random draws.** `java.util.Random` draws are given as natural numbers:
  - the piece pick is reduced modulo the candidate count, as
    `Math.abs(nextInt() % size)` is;
  - the scheduler's `nextInt(size)` draws carry a bound precondition.
- **Download rate.** The measured rate is a `real` parameter. Only the
  comparisons and the -1 sentinel matter.
- **Exceptions.** An exception a thread does not handle gives the status
  `Crashed`. The state and the output keep what was done before the throw.
- **System.exit.** It gives the status `Exited`.

The handlers model the code as written, quirks included:

- ties in the rate ranking go to the later peer;
- the rate-ranked removal is by position;
- the completion counter has no once-only guard;
- a duplicate PIECE is counted again.

## Behaviours of the code worth knowing

The model keeps each of these behaviours of the code:

- **Type codes.** The ten known types are written as the ASCII digits
  '0'–'9', and UNKNOWN as the byte 0 (MessageType.java:58-82).
- **Handshake padding.** The ten padding bytes are ASCII '0'
  (MessageHandler.java:204-209).
- **Handshake check.** Neither side checks the header or the padding.
  - The listening side registers whatever id the caller announces, and a
    short read crashes its thread (MessageHandler.java:140-154).
  - On the dialling side a short read is swallowed (MessageHandler.java:164-180).
- **Frame decoding.** Only the length prefix is read with a check
  (Message.java:66-75).
  - A negative or zero length throws.
  - A type byte of 0x80 or more is sign-extended by the `char` cast and
    decodes as UNKNOWN.
- **Rate sentinel.** A connection's rate becomes -1 when the sending peer is
  known to hold the file (MessageHandler.java:407-410).
- **Rate ties.** The comparison is `<=`, so the last of equal maxima wins
  (PeerHandler.java:433-438).
- **Completion counter.** There is no once-only guard:
  - HAVE bumps the counter whenever the sender's bitfield is full
    (MessageHandler.java:337-339);
  - so does BITFIELD (MessageHandler.java:608-610);
  - every PIECE that finds the local bitfield full bumps it again and
    writes the file again (PeerHandler.java:259-300).
- **Completion test.** The reassembly runs when the count of ones in the
  local bitfield equals its length. PIECE sets hasFile when the chunk count
  reaches that length (MessageHandler.java:372-375). The two can disagree
  after a duplicate PIECE.
- **EXIT broadcast.** Every connection thread sends EXIT to all connections
  when its loop ends, if the local peer then holds the file
  (Message.java:82-90).
- **Preferred list with the file.** With at most k interested peers, the
  has-file branch unchokes them all but leaves the preferred-neighbour
  array all zero, so nothing is logged (PeerHandler.java:369-401).
- **No interested peers.** With none, the has-file branch goes straight to
  the next pass: it does not log and does not sleep
  (ChokeUnchokeHandler.java:52-54).
- **Map iteration order.** HAVE after a PIECE, EXIT at the end and the
  candidate lists of the choke passes all follow the iteration order of the
  connection map. The model takes that order as a parameter `order` and
  requires it to enumerate the map's keys once each (`Swarm.Enumerates`).

## Model

| member | source | states |
|---|---|---|
| MessageTypes.CodeIsDigit | src/main/java/message/MessageType.java:58-82 | each of the ten known types is written as the ASCII digit of its declaration position, a byte in 0x30..0x39 |
| MessageTypes.UnknownCode | src/main/java/message/MessageType.java:81 | UNKNOWN is written as the byte 0 |
| MessageTypes.DigitDecodes | src/main/java/message/MessageType.java:25-46 | the character '0'+d decodes to the type declared at position d |
| MessageTypes.NonDigitIsUnknown | src/main/java/message/MessageType.java:47-48 | every character outside '0'..'9' decodes to UNKNOWN |
| MessageTypes.CodeRoundTrip | src/main/java/message/MessageType.java:25-82 | decoding the code byte of any type, UNKNOWN included, gives that type back |
| MessageTypes.CodeInjective | src/main/java/message/MessageType.java:58-79 | distinct known types get distinct code bytes |
| MessageTypes.FromByteKnown | src/main/java/message/Message.java:74 | a received type byte decodes to a known type exactly when it is one of the ten digit codes, and then it is that type's code; bytes of 0x80 and above are sign-extended by the char cast and read as UNKNOWN |
| MessageTypes.CharOfByte | src/main/java/message/Message.java:74 | the `(char)` cast of a signed byte: bytes below 0x80 keep their value, the others become U+FF80..U+FFFF |
| JavaTypes.IntRoundTrip | src/main/java/message/MessageHandler.java:33-36 | `getInt` reads back the int that `putInt` wrote |
| JavaTypes.IntBytesOfRead | src/main/java/message/MessageHandler.java:33-36 | writing back with `putInt` the int that `getInt` read gives the same four bytes |
| JavaTypes.IntBytesInjective | src/main/java/message/MessageHandler.java:33-36 | distinct ints have distinct 4-byte encodings |
| JavaTypes.OnesFull | src/main/java/message/MessageHandler.java:332-337 | the count of entries equal to 1 reaches the array length exactly when every entry is 1 |
| JavaTypes.OnesSet | src/main/java/message/MessageHandler.java:329-334 | setting an entry to 1 raises the count of ones by one if it was not 1 and leaves it unchanged otherwise |
| Wire.Pack32 | src/main/java/message/MessageHandler.java:188-196 | the parts are laid end to end at the start of a 32-byte array and every later byte is zero |
| Wire.Handshake | src/main/java/message/MessageHandler.java:204-209 | a handshake is 32 bytes: the 18-byte header, ten '0' bytes, then the id, which reads back at offset 28 |
| Wire.HandshakeId | src/main/java/message/MessageHandler.java:58-64 | an announced id is read exactly when 32 bytes arrive |
| Wire.HandshakeRoundTrip | src/main/java/message/MessageHandler.java:164-168 | the int at offset 28 of a received handshake is the id it was built with, whatever follows it on the stream |
| Wire.Frame | src/main/java/message/MessageHandler.java:219-233 | a frame is size+4 bytes: the size big-endian, the type code, the content, then zeros |
| Wire.FrameRoundTrip | src/main/java/message/Message.java:66-75 | reading a frame recovers its type and its content padded with the zeros the builder left, and leaves what followed unread |
| Wire.ExactFrameRoundTrip | src/main/java/message/Message.java:66-75 | when the content fills the frame the payload read back is exactly the content |
| Wire.ReadFrame | src/main/java/message/Message.java:66-75 | a received frame consumes the 4-byte length L and exactly L further bytes, its type is the decode of the first of them; a stream too short for either reports end of stream |
| Wire.DecodeInts | src/main/java/message/MessageHandler.java:581-590 | a BITFIELD payload of n bytes decodes to n/4 ints |
| Wire.BitfieldFrame | src/main/java/message/MessageHandler.java:241-252 | a BITFIELD frame is 5 + 4·|bits| bytes long |
| Wire.BitfieldPayloadRoundTrip | src/main/java/message/MessageHandler.java:581-590 | decoding the encoded entries four bytes at a time recovers every entry |
| Wire.BitfieldFrameRoundTrip | src/main/java/message/MessageHandler.java:241-252 | a BITFIELD frame carries length prefix 1 + 4·|bits| and reads back as BITFIELD with exactly the bitfield it was built from |
| Wire.PieceFrame | src/main/java/message/MessageHandler.java:261-269 | a PIECE frame is 9 + |piece| bytes long |
| Wire.PieceFrameRoundTrip | src/main/java/message/MessageHandler.java:261-269 | a PIECE frame carries length prefix 5 + |piece| and reads back as PIECE with its index in the first four payload bytes and exactly its bytes after them |
| Wire.IndexFrameRoundTrip | src/main/java/message/MessageHandler.java:388-391 | a HAVE or REQUEST frame reads back with its type and its index |
| Wire.ControlRoundTrip | src/main/java/message/MessageHandler.java:503 | a payload-free frame reads back with its type and an empty payload |
| Wire.PieceIndex | src/main/java/message/MessageHandler.java:363-366 | the byte-shifting index loop of the PIECE handler computes the same int as `getInt` |
| Wire.Parse | src/main/java/message/MessageHandler.java:76-119 | a received payload is unreadable exactly when a HAVE, REQUEST or PIECE payload is shorter than the int it must hold |
| Wire.EncodeRoundTrip | src/main/java/message/Message.java:66-78 | every frame message the peer sends is read by the receive loop as the same message, leaving the rest of the stream unread |
| Pieces.PieceCountIsCeiling | src/main/java/peer/PeerHandler.java:177-179 | (S+P−1)/P pieces cover the file, and one fewer piece does not |
| Pieces.PieceCountLeast | src/main/java/peer/PeerHandler.java:177-179 | no count smaller than the piece count covers the file |
| Pieces.PieceCountBoundary | src/main/java/peer/PeerHandler.java:177-179 | a size n·P gives n pieces; n·P + r with 0 < r < P gives n + 1 |
| Pieces.ChunkAt | src/main/java/peer/PeerHandler.java:236-239 | chunk k starts inside the file |
| Pieces.Chunks | src/main/java/peer/PeerHandler.java:229-239 | there is one chunk per piece, chunk k being bytes [kP, min((k+1)P, S)) |
| Pieces.ChunkSizes | src/main/java/peer/PeerHandler.java:236-238 | every chunk but the last has P bytes, the last has S − (C−1)P, none is empty |
| Pieces.ChopLoop | src/main/java/peer/PeerHandler.java:231-248 | the chopping loop produces exactly the chunks, raises the chunk count by the piece count, and reaches the bitfield length on the way exactly when it started below it and ends at or above it |
| Pieces.ConcatChunks | src/main/java/peer/PeerHandler.java:281-287 | the chunks laid end to end are the file |
| Pieces.Flatten | src/main/java/peer/PeerHandler.java:281-286 | the store can be laid end to end exactly when no slot is empty |
| Pieces.Reassemble | src/main/java/peer/PeerHandler.java:278-287 | reassembly succeeds exactly when every slot holds a chunk and they fit the buffer; the result is the chunks in index order followed by zeros up to the file size |
| Pieces.Stored | src/main/java/peer/PeerHandler.java:239 | an owner's store holds chunk k in slot k |
| Pieces.ReassembleChopped | src/main/java/peer/PeerHandler.java:213-287 | reassembling the chunks the chopping produced gives back the original file exactly |
| Swarm.NewPeerData | src/main/java/peer/PeerData.java:15-20 | a new peer record stores id, host, port and hasFile verbatim, with chunk count 0 and no bitfield |
| Swarm.NewConnection | src/main/java/peer/PeerConnection.java:16-24 | a new connection stores its peer id and starts choked, not interested, not optimistic, rate 0 |
| Swarm.Bump | src/main/java/peer/PeerConfiguration.java:107-112 | the counter rises by exactly one and nothing else changes |
| Swarm.Broadcast | src/main/java/message/MessageHandler.java:387-391 | a broadcast has one message per entry of the iteration order |
| Swarm.BroadcastAt | src/main/java/message/MessageHandler.java:387-391 | the j-th message of a broadcast goes to the j-th connection of the order |
| Swarm.BroadcastReaches | src/main/java/message/MessageHandler.java:657-665 | over an enumeration of the connection map a broadcast sends the message to a connection exactly when it is in the map, sends nothing else, and sends to no connection twice |
| Swarm.BroadcastLast | src/main/java/message/MessageHandler.java:387-391 | a step whose effects end with a broadcast has sent the message to every connection of the map |
| Swarm.Setup | src/main/java/peer/PeerHandler.java:151-250 | start-up gives one local bit per piece, each equal to the hasFile flag; the counter is 1 exactly when the flag is 1; the local record keeps its id, host and port; a peer without the file gets empty slots and keeps hasFile 0; an owner's slot k holds chunk k, so its store reassembles to its file, and its chunk count rises by the piece count, which sets hasFile to 1 exactly when the count crosses the bitfield length; the state invariant holds |
| Interest.InterestFrom | src/main/java/message/MessageHandler.java:304-309 | from position b the scan finds interest exactly when a wanted piece lies ahead, and throws exactly when it must read a missing remote entry first |
| Interest.Decide | src/main/java/message/MessageHandler.java:302-310 | we are interested exactly when some piece is 0 locally and 1 remotely; not interested exactly when no such piece exists and the scan never reads a missing entry |
| Interest.CandidatesFrom | src/main/java/message/MessageHandler.java:281-286 | from position b the candidates are exactly the wanted pieces, in increasing order, unless the scan throws |
| Interest.Candidates | src/main/java/message/MessageHandler.java:280-286 | the candidates are exactly the pieces we lack and the sender holds; the scan throws exactly when a piece we lack has no remote entry |
| Interest.InterestMatchesCandidates | src/main/java/message/MessageHandler.java:280-313 | the interest decision says "interested" exactly when the candidate list is non-empty |
| Handlers.Answer | src/main/java/message/MessageHandler.java:310-311 | exactly one message goes out, INTERESTED or NOT_INTERESTED as decided, unless the scan threw |
| Handlers.Follow | src/main/java/message/MessageHandler.java:280-291 | a REQUEST is sent exactly when some piece is wanted, and the requested index is a wanted piece; the scan throws exactly when a lacked piece has no remote entry |
| Handlers.OnRequest | src/main/java/message/MessageHandler.java:78-82 | REQUEST(i) is answered with PIECE(i, chunks[i]) exactly when i is a slot holding a chunk; otherwise the thread crashes; the state never changes |
| Handlers.OnHave | src/main/java/message/MessageHandler.java:323-345 | HAVE(i) runs to its end exactly when the payload holds an int, the sender is a known peer with a bitfield, i is one of its entries and the interest scan of the local bitfield against the updated one does not throw; the local bitfield changes only when the sender is the local peer itself; then it sets only bit i of the sender's bitfield; the sender is marked as holding the file and the counter rises by one exactly when its count of ones equals the local bitfield length; its chunk count and every other peer stay unchanged; the reply is the interest decision |
| Handlers.MarkHave | src/main/java/message/MessageHandler.java:328-340 | the sender's bitfield is replaced and the counter rises exactly when the new bitfield is full, with no guard against counting a peer twice |
| Handlers.Store | src/main/java/message/MessageHandler.java:367-376 | PIECE(i, d) stores d in slot i, sets local bit i and raises the chunk count by one even if the bit was set, setting hasFile when the count equals the bitfield length |
| Handlers.Complete | src/main/java/peer/PeerHandler.java:259-300 | with a full local bitfield the chunks are reassembled and written, hasFile is set and the counter bumped, each time it runs; otherwise nothing happens |
| Handlers.AfterStore | src/main/java/message/MessageHandler.java:378-391 | after storing, the local bits and chunks are not changed again, and a completed step ends with HAVE(i) to every connection, in iteration order |
| Handlers.AfterStoreRuns | src/main/java/message/MessageHandler.java:378-391 | the follow-up runs to its end exactly when the sender is a known peer, the request scan is skipped because the connection is choked or reads only entries that exist, and a full local bitfield can be reassembled |
| Handlers.Settle | src/main/java/message/MessageHandler.java:387-391 | the completion check and the HAVE broadcast keep what was already sent as a prefix and add only HAVE frames besides the file write; the step runs to its end exactly when a full local bitfield can be reassembled, and then ends with HAVE(i) to every connection; a throwing check stops the step with nothing more sent |
| Handlers.AfterStoreRate | src/main/java/message/MessageHandler.java:402-412 | only the sender's connection changes, and only its rate: −1 when the sending peer is known to hold the file, otherwise the measured rate |
| Handlers.AfterStoreRequests | src/main/java/message/MessageHandler.java:378-380 | a choked connection gets no REQUEST; an unchoked one gets one, first, exactly when the sender holds a piece we lack |
| Handlers.AfterStoreKeeps | src/main/java/message/MessageHandler.java:378-391 | the follow-up of a stored piece keeps the state invariant and never sends EXIT |
| Handlers.OnPiece | src/main/java/message/MessageHandler.java:356-392 | a payload shorter than an int throws at once, changing nothing; PIECE runs to its end exactly when the payload holds an int i, i is a slot of the store and the bitfield, the sender is known, the follow-up scan does not throw and a full bitfield can be reassembled; a completed PIECE(i, d) has stored d in slot i, set local bit i, raised the chunk count by one, and sent HAVE(i) to every connection of the map, last |
| Handlers.PieceData | src/main/java/message/MessageHandler.java:367-391 | once the index is read, PIECE(i, d) runs to its end under the same conditions; a completed one has stored d in slot i, set bit i, raised the chunk count by one and ended with the HAVE(i) broadcast; an index outside the store or the bitfield throws with nothing sent and no connection or peer changed |
| Handlers.StoreSeenBy | src/main/java/message/MessageHandler.java:367-380 | the follow-up of PIECE sees the stored piece: its request scan and completion check read the local bitfield with bit i set, also when the sender is the local peer itself |
| Handlers.OnInterested | src/main/java/message/MessageHandler.java:468-475 | only the interested flag of the connection changes, to true; nothing is sent |
| Handlers.OnNotInterested | src/main/java/message/MessageHandler.java:484-505 | the connection becomes not interested and choked; a CHOKE is sent exactly when it was unchoked |
| Handlers.OnChoke | src/main/java/message/MessageHandler.java:513-523 | only the choked flag of the connection changes, to true |
| Handlers.OnUnchoke | src/main/java/message/MessageHandler.java:532-557 | the connection becomes unchoked; the thread crashes, sending nothing, exactly when the sender is unknown or the scan throws; otherwise at most one message goes out, and it does exactly when the sender holds a piece we lack: a REQUEST to the sender for such a piece |
| Handlers.OnBitfield | src/main/java/message/MessageHandler.java:567-614 | BITFIELD runs to its end exactly when the sender is a known peer and the interest scan of the local bitfield against the decoded ints does not throw; the local bitfield changes only when the sender is the local peer itself; the sender's bitfield is replaced wholesale by the decoded ints; it is marked as holding the file, and the counter bumped, exactly when its count of ones equals the local bitfield length, and otherwise marked as not holding it |
| Handlers.BitfieldReply | src/main/java/message/MessageHandler.java:612-613 | a completed BITFIELD is answered with one message to the sender: INTERESTED exactly when it holds a piece we lack, NOT_INTERESTED otherwise |
| Handlers.Dispatch | src/main/java/message/MessageHandler.java:76-119 | only EXIT stops the process; DONE and UNKNOWN change nothing; no handler changes ids, host, port, key sets or store size, or sends EXIT; the state invariant is kept |
| Session.Finish | src/main/java/message/Message.java:82-90 | after the loop the process exits; a peer holding the file sends EXIT to every connection of the map exactly once and to nothing else, one message per connection; a peer without the file sends nothing |
| Session.Loop | src/main/java/message/Message.java:65-80 | frames are handled only while the counter is below the swarm size; the loop always ends; EXIT is only ever sent by the final broadcast of a peer holding the file |
| Session.LoopHandlesFrame | src/main/java/message/Message.java:65-80 | while the counter is below the swarm size, the frame read from the stream is handled first: everything the handler sends is the start of what the loop sends, a handler that throws or exits ends the loop with its own result, and a broken stream ends it with nothing sent and nothing changed |
| Session.ExitFrameStops | src/main/java/message/MessageHandler.java:619-621 | a received EXIT frame stops the process at once, sending nothing and changing nothing |
| Session.Run | src/main/java/message/Message.java:47-95 | the first message on every connection is the local bitfield; the invariant is kept; EXIT goes out only from a peer holding the file |
| Neighbours.SetChoke | src/main/java/peer/PeerHandler.java:312-322 | the choke flag is set to exactly the given value and CHOKE or UNCHOKE is sent, unconditionally; nothing else changes |
| Neighbours.SendUnchoke | src/main/java/peer/PeerHandler.java:332-341 | the connection ends unchoked; UNCHOKE is sent exactly when it was choked |
| Neighbours.UnchokeAll | src/main/java/peer/PeerHandler.java:411-416 | every listed connection ends unchoked, none is choked, unlisted ones are untouched, and only UNCHOKE frames are sent |
| Neighbours.UnchokeAllSends | src/main/java/peer/PeerHandler.java:411-416 | UNCHOKE goes to a connection exactly when it is listed and was choked |
| Neighbours.ChokeRest | src/main/java/peer/PeerHandler.java:393-399 | a listed connection ends choked exactly when it was choked or is not optimistic; optimistic ones stay unchoked; only CHOKE frames are sent |
| Neighbours.ChokeRestSends | src/main/java/peer/PeerHandler.java:483-489 | CHOKE goes to a connection exactly when it is listed, unchoked and not optimistic |
| Neighbours.RemoveAt | src/main/java/peer/PeerHandler.java:386 | removing by position leaves one element fewer and the same multiset minus the removed element |
| Neighbours.Pick | src/main/java/peer/PeerHandler.java:383-387 | k draws by position split the pool into k chosen and the rest, as multisets |
| Neighbours.PickSplits | src/main/java/peer/PeerHandler.java:383-387 | from a distinct pool the chosen ids are distinct, disjoint from the rest, and together with the rest make up the pool |
| Neighbours.SendData | src/main/java/peer/PeerHandler.java:369-401 | with at most k interested all are unchoked and the preferred array stays zero; otherwise the k drawn ids are preferred, unchoked, and the rest handled as ChokeRest; only choke flags change and optimistic connections keep unchoked |
| Neighbours.SendDataSplits | src/main/java/peer/PeerHandler.java:369-401 | the k preferred are distinct interested ids and end unchoked; every other interested id ends choked unless it is optimistic and unchoked; other connections are untouched |
| Neighbours.Chosen | src/main/java/peer/PeerHandler.java:389-399 | the chosen end unchoked, the others choked unless optimistic; UNCHOKE and CHOKE go to exactly the connections whose flag changes |
| Neighbours.Highest | src/main/java/peer/PeerHandler.java:426-442 | the result is a listed id with maximal rate |
| Neighbours.HighestIsLastMax | src/main/java/peer/PeerHandler.java:433-438 | on ties the last of the maximal ids wins: every later id is strictly slower |
| Neighbours.Rank | src/main/java/peer/PeerHandler.java:471-480 | the rate-ranked loop never chokes a connection and records at most k ids, each from the pool and left unchoked; the first recorded id is the fastest of the pool (the last of equal maxima); connections not recorded are untouched; when it completes it has recorded min(k, |pool|) ids, and what is left is a sub-multiset of the pool |
| Neighbours.Prefer | src/main/java/peer/PeerHandler.java:454-491 | with at most k candidates all are unchoked and recorded in order, zero-padded to k; with more it is the rate-ranked selection; in every case only choke flags change, optimistic connections stay unchoked and non-candidates are untouched |
| Neighbours.PreferRanked | src/main/java/peer/PeerHandler.java:468-491 | with more than k candidates the pass throws exactly when the rate-ranked loop does; otherwise the recorded ids are the preferred array, recorded ids not left in the list end unchoked, every id left in the list ends choked exactly when it was choked and not recorded, or is not optimistic, and all others are untouched |
| Neighbours.Interested | src/main/java/peer/ChokeUnchokeHandler.java:47-63 | the candidates are exactly the interested connections of the map, and without the file only those whose rate is not negative; they come in iteration order, each once |
| Neighbours.Select | src/main/java/peer/ChokeUnchokeHandler.java:47-63 | filtering an order keeps exactly its interested (and, when rated, non-negative-rate) entries, as a subsequence, without repeats when the order has none |
| Neighbours.Logged | src/main/java/peer/ChokeUnchokeHandler.java:69-80 | the log lists exactly the non-zero entries of the preferred array |
| Neighbours.ChokeTick | src/main/java/peer/ChokeUnchokeHandler.java:42-88 | a pass exits exactly when the counter has reached the swarm size, leaving everything unchanged; a negative neighbour count throws at once; otherwise the pass changes only choke flags, never chokes an optimistically unchoked connection, leaves uninterested connections untouched, and a completed pass fills a k-entry array |
| Neighbours.ChokeTickWithFile | src/main/java/peer/ChokeUnchokeHandler.java:46-56 | with the file a pass never throws and fills a k-entry array; with no interested connection it changes and sends nothing; with at most k, every interested connection is unchoked, UNCHOKE goes exactly to those that were choked, and the array stays zero; with more, k distinct interested connections end unchoked and fill the array, and every other interested connection ends choked unless it was open and optimistic |
| Neighbours.ChokeTickWithoutFile | src/main/java/peer/ChokeUnchokeHandler.java:59-65 | without the file a pass is the rate-ranked selection over the interested connections with non-negative rate; with at most k of them all are unchoked and fill the front of the array; with more, the first entry is the fastest of them, and the pass throws only through the rate-ranked removal |
| Handshakes.Register | src/main/java/message/MessageHandler.java:633-649 | a fresh choked connection for the peer is stored under the key, replacing any earlier one; nothing else changes |
| Handshakes.Connect | src/main/java/message/MessageHandler.java:164-180 | the dialling side sends its handshake, closes the socket without registering when a different id answers, registers under the expected id when it matches, and does nothing more on a short read |
| Handshakes.Accept | src/main/java/message/MessageHandler.java:140-154 | the listening side crashes exactly on a short read, and otherwise registers the announced id, whatever it is, and answers with its own handshake |
| Handshakes.RegisterKeepsValid | src/main/java/message/MessageHandler.java:645 | registering another peer under its own id keeps the state invariant |
| Handshakes.Exchange | src/main/java/message/MessageHandler.java:140-173 | after both handshakes each side holds a connection for the other, stored under the other's id |
| Handshakes.WrongPeerRejected | src/main/java/message/MessageHandler.java:169-171 | a reply from any peer but the expected one closes the socket and registers nothing |
| Optimistic.Start | src/main/java/peer/OptimisticUnchokeHandler.java:43-59 | a pass exits exactly when the counter has reached the swarm size; it finds no connection exactly when none of the map is interested, and then nothing changes; otherwise one interested connection of the map is unchoked with an UNCHOKE whatever its state and marked optimistic, and nothing else changes |
| Optimistic.End | src/main/java/peer/OptimisticUnchokeHandler.java:65 | after the interval only the optimistic mark of the chosen connection changes, to false |
| Optimistic.PassLeavesUnchoked | src/main/java/peer/OptimisticUnchokeHandler.java:49-66 | a whole pass leaves only the chosen connection changed, and only in being unchoked |
| Optimistic.ChokeTickSparesOptimistic | src/main/java/peer/PeerHandler.java:394-395 | during the interval a choke/unchoke pass never chokes the optimistically unchoked connection |
| Transfer.RequestServed | src/main/java/message/MessageHandler.java:78-81 | a REQUEST frame read from the stream is answered with PIECE(i, chunks[i]) and nothing else changes |
| Transfer.LoopServesRequest | src/main/java/message/Message.java:65-80 | inside the receive loop of a peer holding piece i, a REQUEST frame for i is answered with PIECE(i, chunk i) before anything else, and the loop carries on with the rest of the stream from the same state |
| Transfer.PieceReceived | src/main/java/message/MessageHandler.java:356-391 | a PIECE frame read from the stream is handled to its end exactly when the run condition of PIECE holds, and then its data is in its slot, its local bit is set and every connection is sent HAVE for it |
| Transfer.PieceStored | src/main/java/message/MessageHandler.java:356-391 | a PIECE payload of an index and data is handled to its end exactly when the run condition of PIECE holds, and then stores the data, sets the bit and sends HAVE to every connection |
| Transfer.OwnerServesFile | src/main/java/message/MessageHandler.java:78-82 | an owner just started and connected answers a REQUEST frame for piece i with PIECE(i, chunk i of its file) and changes nothing |
| Transfer.Deliver | src/main/java/message/MessageHandler.java:367-370 | after storing a sequence of the owner's chunks, each listed slot holds the owner's chunk with its bit set and every other slot is unchanged |
| Transfer.DownloadComplete | src/main/java/peer/PeerHandler.java:266-292 | once every piece has arrived, in any order and with repeats, the store is the owner's chunks, every bit is 1, and the completion check writes exactly the owner's file |
| Transfer.DownloadMatchesOwner | src/main/java/peer/PeerHandler.java:213-249 | once every piece has arrived from an owner, the downloaded store is exactly the store the owner built at start-up |
| Findings.RankCrashesOnPeerIds | src/main/java/peer/PeerHandler.java:478 | the removal by position throws whenever every candidate id is at least the list length |
| Findings.PreferCrashesExample | src/main/java/peer/PeerHandler.java:471-479 | three interested peers 1001, 1002, 1003 and two preferred neighbours make the pass throw |
| Findings.PreferChokesPreferredExample | src/main/java/peer/PeerHandler.java:471-489 | with pool [2, 0, 1], one preferred neighbour and peer 2 fastest, removal by position takes out peer 1 instead of peer 2: peer 2 is preferred yet ends choked, and peer 1 stays unchoked |
| Findings.IndexOf | src/main/java/peer/PeerHandler.java:478 | the position of the first occurrence, which removal by value takes out |
| Findings.RankByValue | src/main/java/peer/PeerHandler.java:471-480 | removing by value, the loop never throws, records min(k, |pool|) ids that together with the rest make up the pool, unchokes them, and no left-over id is faster than a recorded one |
| Findings.PreferByValue | src/main/java/peer/PeerHandler.java:454-491 | with removal by value the pass never throws, fills a k-entry array, every preferred neighbour is at least as fast as every other candidate, and non-candidates are untouched |
| Findings.PreferByValueRanked | src/main/java/peer/PeerHandler.java:468-491 | with more than k distinct candidates the preferred are k distinct candidates, none slower than a candidate left out, and they end unchoked; every candidate left out ends choked unless it was open and optimistic |
| Findings.DuplicatePieceMarksFileEarly | src/main/java/message/MessageHandler.java:372-375 | with two pieces, receiving piece 0 twice marks the peer as holding the file while piece 1 is still missing |
| Findings.StoreOnce | src/main/java/message/MessageHandler.java:367-376 | counting a piece only the first time keeps the chunk count equal to the number of set bits, so hasFile is set only when every bit is set |
| Findings.StoreOnceIdempotent | src/main/java/message/MessageHandler.java:367-376 | storing the same piece twice is storing it once |
| Findings.RepeatedHaveCountsAgain | src/main/java/message/MessageHandler.java:337-339 | a HAVE from a peer already counted as holding the file bumps the counter again |
| Findings.OnHaveOnce | src/main/java/message/MessageHandler.java:323-345 | with the guard, the counter rises by at most one, and only when the sender was not yet marked as holding the file and now is |
| Findings.MarkHaveOnce | src/main/java/message/MessageHandler.java:328-340 | the guarded bookkeeping bumps the counter only for a sender not yet marked as holding the file |
| Findings.MarkHaveOnceIdempotent | src/main/java/message/MessageHandler.java:328-340 | the guarded bookkeeping applied twice is applied once |
| Findings.OnHaveOnceIdempotent | src/main/java/message/MessageHandler.java:323-345 | the same HAVE received twice leaves the state as receiving it once |

## Left out

- Sockets are not modelled:
  - `sendMessage`, `acceptMessage` and `readFully` become the `Send`/`Close` outputs and the input stream given as a byte sequence;
  - `Sender` and `Receiver` are not part of this model: they only open sockets and call the handshake functions;
  - Receiver's connection count is never updated.
- Threads, `synchronized`, the compare-and-set retry loop of `updateFileStatusForPeer`, and `Thread.sleep`/`peerHold` are not modelled. Each handler or scheduler pass is one atomic step.
- Optimistic.Start: the interleaving of other threads between the optimistic unchoke and the clearing of its mark is not modelled. The pass is split into Start and End with nothing in between except what a lemma composes.
- `java.util.Random` is replaced by draws given as parameters.
- The rate measurement is not modelled: `System.nanoTime`, the double division and the `TIME_CONSTANT` scaling. The measured rate is a `real` parameter.
- `LogHandler` and `DisplayConstants` produce timestamped console and file output and are not modelled. Only the choice of ids in the preferred-neighbour log line is (Neighbours.Logged).
- File and disk I/O are not modelled:
  - `readFileBytes` is assumed to read the whole file in its single `read` call; Swarm.Setup takes the file's bytes as a parameter;
  - the file write becomes the `WriteFile` output, and a failing write, which the code ignores, is not modelled;
  - the unused `fileReconstructor`/`getSortedFileList` are not modelled.
- Configuration parsing, `peerProcess.main` and directory creation are not modelled. Their values are the parameters of Swarm.Setup.
- Integer widths:
  - the completion counter and the chunk count are unbounded, so 32-bit overflow after 2^31 increments is not modelled;
  - a file or piece size whose `(S + P − 1)` overflows an int is excluded by Swarm.Setup's precondition.
- The host and port are carried in PeerData but not used.
- The setters and getters of PeerData, PeerConnection and PeerConfiguration are modelled as datatype updates and field reads. Each handler's contract states which fields it changes.
- The static `PeerHandler.peerProcessId` is the `self` field of the state.
- Swarm.Setup: the configured hasFile flag is taken as given, including values other than 0 and 1. Those values are treated as holding the file for chopping, as in the code.

## Findings

| source | as written | input that shows it | evidently intended | confidence | as-written member | corrected member |
|---|---|---|---|---|---|---|
| src/main/java/peer/PeerHandler.java:478 | `interestedPeers.remove(peerId)` with an `int` argument calls `List.remove(int index)`, which removes the element at position peerId and throws when peerId is not a position | a peer without the file, three interested peers 1001, 1002, 1003 with non-negative rates, two preferred neighbours: the first removal throws and ends the scheduler thread | remove the chosen peer by value (`remove(Integer.valueOf(peerId))`), so the k fastest are chosen and the rest choked | not executed | Findings.PreferCrashesExample | Findings.PreferByValue |
| src/main/java/peer/PeerHandler.java:478 | the same removal by position, when the chosen peer id is a valid position, takes out some other candidate, which then escapes the choke loop while the chosen peer is choked by it | a peer without the file, candidates [2, 0, 1] with peer 2 fastest, unchoked and not optimistic, one preferred neighbour: 2 is recorded as preferred, position 2 (peer 1) is removed, and the choke loop over [2, 0] chokes peer 2 and leaves peer 1 unchoked | remove the chosen peer by value, so that the preferred peer stays unchoked and every other candidate is choked unless optimistic | not executed | Findings.PreferChokesPreferredExample | Findings.PreferByValueRanked |
| src/main/java/message/MessageHandler.java:372-375 | every PIECE raises the local chunk count, even for a piece already held, and hasFile is set when the count equals the bitfield length | two pieces, piece 0 received twice: the chunk count is 2 and hasFile is 1 while bit 1 is still 0 | count a piece only when its bit was not yet set | not executed | Findings.DuplicatePieceMarksFileEarly | Findings.StoreOnce |
| src/main/java/message/MessageHandler.java:337-339 | a HAVE whose sender's bitfield is full bumps the completion counter, even when that peer was counted before | a peer already marked as holding the file with a full bitfield sends HAVE(0) again: the counter rises a second time, and the loops waiting for it can end early | bump the counter only when the sender was not yet marked as holding the file | not executed | Findings.RepeatedHaveCountsAgain | Findings.OnHaveOnce |

The handlers in `Handlers` and `Neighbours` keep the code as written, and
the corrected definitions live beside them in `Findings`.

=== FILE: choke.dfy ===
/**
 Choosing the preferred neighbours: the choke/unchoke helpers of
 PeerHandler and one pass of the ChokeUnchokeHandler loop.

 With the whole file, the preferred neighbours are drawn at random from the
 interested connections; without it, they are the fastest of the interested
 connections whose rate is not the -1 sentinel. The connection lists come
 from a ConcurrentHashMap and are given in its iteration order.
 */
module Neighbours {
  import opened JavaTypes
  import opened MessageTypes
  import opened Wire
  import opened Swarm
  import Pieces

  /** Every id of the list names an open connection. */
  predicate AllOpen(s: State, ids: seq<Int32>)
  {
    forall c | c in ids :: c in s.conns
  }

  /** The state differs from `s` at most in the choke flags of connections. */
  predicate OnlyChokeFlags(s: State, t: State)
  {
    && t.(conns := s.conns) == s
    && t.conns.Keys == s.conns.Keys
    && forall k | k in s.conns :: t.conns[k].(choked := s.conns[k].choked) == s.conns[k]
  }

  /** No connection that was unchoked is choked. */
  predicate NoNewChoke(s: State, t: State)
  {
    forall c | c in s.conns && c in t.conns && !s.conns[c].choked :: !t.conns[c].choked
  }

  /** An optimistically unchoked connection stays unchoked. */
  predicate KeepsOptimistic(s: State, t: State)
  {
    forall c | c in s.conns && c in t.conns && s.conns[c].optimistic && !s.conns[c].choked :: !t.conns[c].choked
  }

  lemma KeepsTrans(s: State, t: State, u: State)
    requires OnlyChokeFlags(s, t) && OnlyChokeFlags(t, u)
    requires KeepsOptimistic(s, t) && KeepsOptimistic(t, u)
    ensures KeepsOptimistic(s, u)
  {
  }

  /** `handleSendChokeUnchokeMessage`: set the flag to the given value and send CHOKE or UNCHOKE, unconditionally. */
  function SetChoke(s: State, c: Int32, choke: bool): (r: Step)
    requires c in s.conns
    ensures r.status == Running && OnlyChokeFlags(s, r.s)
    ensures r.s.conns[c].choked == choke
    ensures forall k | k in s.conns && k != c :: r.s.conns[k] == s.conns[k]
    ensures r.out == [Send(c, Signal(if choke then Choke else Unchoke))]
  {
    Step(SetConn(s, c, s.conns[c].(choked := choke)), [Send(c, Signal(if choke then Choke else Unchoke))], Running)
  }

  /** `sendUnchokeMessage`: unchoke the connection only if it is choked. */
  function SendUnchoke(s: State, c: Int32): (r: Step)
    requires c in s.conns
    ensures r.status == Running && OnlyChokeFlags(s, r.s)
    ensures !r.s.conns[c].choked && NoNewChoke(s, r.s)
    ensures forall k | k in s.conns && k != c :: r.s.conns[k] == s.conns[k]
    ensures r.out == (if s.conns[c].choked then [Send(c, Signal(Unchoke))] else [])
  {
    if s.conns[c].choked then SetChoke(s, c, false) else Step(s, [], Running)
  }

  /** `sendUnchokeMessage` for each id in turn (`unchokeAllNeighbors`, the small-set branches). */
  function UnchokeAll(s: State, ids: seq<Int32>): (r: Step)
    requires AllOpen(s, ids)
    ensures r.status == Running && OnlyChokeFlags(s, r.s)
    ensures forall k | k in ids :: !r.s.conns[k].choked
    ensures NoNewChoke(s, r.s)
    ensures forall k | k in s.conns && k !in ids :: r.s.conns[k] == s.conns[k]
    ensures forall o | o in r.out :: o.Send? && o.msg == Signal(Unchoke)
    decreases |ids|
  {
    if |ids| == 0 then Step(s, [], Running)
    else
      var a := SendUnchoke(s, ids[0]);
      var b := UnchokeAll(a.s, ids[1..]);
      assert forall k | k in ids :: k == ids[0] || k in ids[1..];
      Step(b.s, a.out + b.out, Running)
  }

  /** UNCHOKE goes exactly to the listed connections that were choked, repeats or not. */
  lemma {:induction false} UnchokeAllSends(s: State, ids: seq<Int32>)
    requires AllOpen(s, ids)
    ensures forall k :: Send(k, Signal(Unchoke)) in UnchokeAll(s, ids).out <==> k in ids && s.conns[k].choked
    decreases |ids|
  {
    if |ids| > 0 {
      var a := SendUnchoke(s, ids[0]);
      UnchokeAllSends(a.s, ids[1..]);
      assert forall k | k in ids :: k == ids[0] || k in ids[1..];
    }
  }

  /**
   The closing loop of both branches: every listed connection that is
   neither choked nor optimistically unchoked is choked, with a CHOKE sent.
   */
  function ChokeRest(s: State, ids: seq<Int32>): (r: Step)
    requires AllOpen(s, ids)
    ensures r.status == Running && OnlyChokeFlags(s, r.s)
    ensures forall k | k in ids :: r.s.conns[k].choked == (s.conns[k].choked || !s.conns[k].optimistic)
    ensures KeepsOptimistic(s, r.s)
    ensures forall k | k in s.conns && k !in ids :: r.s.conns[k] == s.conns[k]
    ensures forall o | o in r.out :: o.Send? && o.msg == Signal(Choke)
    decreases |ids|
  {
    if |ids| == 0 then Step(s, [], Running)
    else
      var c := ids[0];
      var a := if !s.conns[c].choked && !s.conns[c].optimistic then SetChoke(s, c, true) else Step(s, [], Running);
      var b := ChokeRest(a.s, ids[1..]);
      assert forall k | k in ids :: k == ids[0] || k in ids[1..];
      Step(b.s, a.out + b.out, Running)
  }

  /** CHOKE goes exactly to the listed connections that were neither choked nor optimistic. */
  lemma {:induction false} ChokeRestSends(s: State, ids: seq<Int32>)
    requires AllOpen(s, ids)
    ensures forall k :: Send(k, Signal(Choke)) in ChokeRest(s, ids).out <==>
              k in ids && !s.conns[k].choked && !s.conns[k].optimistic
    decreases |ids|
  {
    if |ids| > 0 {
      var c := ids[0];
      var a := if !s.conns[c].choked && !s.conns[c].optimistic then SetChoke(s, c, true) else Step(s, [], Running);
      ChokeRestSends(a.s, ids[1..]);
      assert forall k | k in ids :: k == ids[0] || k in ids[1..];
    }
  }

  /** `List.remove(int index)`: the element at position j taken out. */
  function RemoveAt(xs: seq<Int32>, j: nat): (r: seq<Int32>)
    requires j < |xs|
    ensures |r| == |xs| - 1
    ensures multiset(r) + multiset{xs[j]} == multiset(xs)
    ensures forall x | x in r :: x in xs
  {
    assert xs == xs[..j] + [xs[j]] + xs[j + 1..];
    xs[..j] + xs[j + 1..]
  }

  /** Every element of a sub-multiset comes from the whole. */
  lemma SubMultisetWithin(xs: seq<Int32>, pool: seq<Int32>)
    ensures multiset(xs) <= multiset(pool) ==> forall c | c in xs :: c in pool
  {
    if multiset(xs) <= multiset(pool) {
      forall c | c in xs ensures c in pool {
        assert c in multiset(xs);
      }
    }
  }

  /**
   The random picks of `checkInterestedAndSendData`: draw j takes the element
   at position picks[j] of what is left, `List.remove(int)` style. Returns the
   chosen ids in order and what is left.
   */
  function Pick(pool: seq<Int32>, picks: seq<nat>): (r: (seq<Int32>, seq<Int32>))
    requires |picks| <= |pool|
    requires forall j | 0 <= j < |picks| :: picks[j] < |pool| - j
    ensures |r.0| == |picks| && |r.1| == |pool| - |picks|
    ensures multiset(r.0) + multiset(r.1) == multiset(pool)
    decreases |picks|
  {
    if |picks| == 0 then ([], pool)
    else
      var rest := Pick(RemoveAt(pool, picks[0]), picks[1..]);
      ([pool[picks[0]]] + rest.0, rest.1)
  }

  /** The random draws fit the pool: draw j is below the size of what is left. */
  predicate PicksFit(picks: seq<nat>, size: int, k: int)
  {
    0 <= k <= |picks| && forall j | 0 <= j < k :: picks[j] < size - j
  }

  /** Distinct elements stay distinct, and chosen and left-over elements are disjoint. */
  lemma PickSplits(pool: seq<Int32>, picks: seq<nat>)
    requires |picks| <= |pool|
    requires forall j | 0 <= j < |picks| :: picks[j] < |pool| - j
    requires Distinct(pool)
    ensures Distinct(Pick(pool, picks).0) && Distinct(Pick(pool, picks).1)
    ensures forall k :: k in pool <==> k in Pick(pool, picks).0 || k in Pick(pool, picks).1
    ensures forall k | k in Pick(pool, picks).0 :: k !in Pick(pool, picks).1
  {
    var r := Pick(pool, picks);
    MultisetDistinct(pool);
    forall k ensures k in pool <==> k in r.0 || k in r.1 {
      assert k in multiset(pool) <==> k in multiset(r.0) + multiset(r.1);
    }
    DistinctParts(r.0, r.1, pool);
  }

  /** A sequence is distinct exactly when no element occurs twice in its multiset. */
  lemma {:induction false} MultisetDistinct(xs: seq<Int32>)
    ensures Distinct(xs) <==> forall k :: multiset(xs)[k] <= 1
  {
    if |xs| > 0 {
      MultisetDistinct(xs[1..]);
      assert xs == [xs[0]] + xs[1..];
      assert multiset(xs) == multiset{xs[0]} + multiset(xs[1..]);
      if Distinct(xs) {
        assert xs[0] !in xs[1..];
        assert Distinct(xs[1..]);
      }
      if forall k :: multiset(xs)[k] <= 1 {
        forall k ensures multiset(xs[1..])[k] <= 1 {
          assert multiset(xs)[k] >= multiset(xs[1..])[k];
        }
        assert multiset(xs)[xs[0]] <= 1;
        assert multiset(xs[1..])[xs[0]] == 0;
        forall j, m | 0 <= j < m < |xs| ensures xs[j] != xs[m] {
          if j == 0 {
            assert xs[m] in xs[1..];
          } else {
            assert xs[1..][j - 1] == xs[j] && xs[1..][m - 1] == xs[m];
          }
        }
      }
    }
  }

  /** Two parts of a distinct whole are distinct and disjoint. */
  lemma DistinctParts(a: seq<Int32>, b: seq<Int32>, whole: seq<Int32>)
    requires multiset(a) + multiset(b) == multiset(whole)
    requires Distinct(whole)
    ensures Distinct(a) && Distinct(b)
    ensures forall k | k in a :: k !in b
  {
    MultisetDistinct(whole);
    forall k ensures multiset(a)[k] <= 1 && multiset(b)[k] <= 1 && (k in a ==> k !in b) {
      assert multiset(whole)[k] == multiset(a)[k] + multiset(b)[k];
    }
    MultisetDistinct(a);
    MultisetDistinct(b);
  }

  /** One tick's outcome: the step and the preferred-neighbour array it filled. */
  datatype Tick = Tick(step: Step, preferred: seq<Int32>)

  /**
   `checkInterestedAndSendData`: with at most k interested, unchoke them all
   and leave the preferred array empty (all zero); otherwise draw k of them
   at random, unchoke those, and choke the rest unless choked already or
   optimistically unchoked.
   */
  function SendData(s: State, ids: seq<Int32>, k: nat, picks: seq<nat>): (r: Tick)
    requires AllOpen(s, ids)
    requires |ids| > k ==> PicksFit(picks, |ids|, k)
    ensures r.step.status == Running && OnlyChokeFlags(s, r.step.s) && KeepsOptimistic(s, r.step.s)
    ensures forall c | c in s.conns && c !in ids :: r.step.s.conns[c] == s.conns[c]
    ensures |r.preferred| == k
    ensures |ids| <= k ==> r.preferred == seq(k, _ => 0) && r.step == UnchokeAll(s, ids)
    ensures |ids| > k ==> r.preferred == Pick(ids, picks[..k]).0
    ensures |ids| > k ==>
              var drawn := Pick(ids, picks[..k]);
              AllOpen(s, drawn.0) && AllOpen(s, drawn.1)
              && r.step == Chosen(s, drawn.0, drawn.1)
  {
    if |ids| <= k then Tick(UnchokeAll(s, ids), seq(k, _ => 0))
    else
      var drawn := Pick(ids, picks[..k]);
      SubMultisetWithin(drawn.0, ids);
      SubMultisetWithin(drawn.1, ids);
      Tick(Chosen(s, drawn.0, drawn.1), drawn.0)
  }

  /**
   With distinct interested ids and more of them than k: the k drawn ids are
   distinct interested ids and end up unchoked; every other interested id is
   choked unless it was choked already or is optimistically unchoked; no
   other connection changes.
   */
  lemma SendDataSplits(s: State, ids: seq<Int32>, k: nat, picks: seq<nat>)
    requires AllOpen(s, ids) && Distinct(ids)
    requires |ids| > k && PicksFit(picks, |ids|, k)
    ensures var r := SendData(s, ids, k, picks);
            && Distinct(r.preferred)
            && (forall c | c in r.preferred :: c in ids && !r.step.s.conns[c].choked)
            && (forall c | c in ids && c !in r.preferred ::
                  r.step.s.conns[c].choked == (s.conns[c].choked || !s.conns[c].optimistic))
            && (forall c | c in s.conns && c !in ids :: r.step.s.conns[c] == s.conns[c])
  {
    PickSplits(ids, picks[..k]);
  }

  /** Unchoke the chosen ids, then choke the others that are neither choked nor optimistic. */
  function Chosen(s: State, chosen: seq<Int32>, others: seq<Int32>): (r: Step)
    requires AllOpen(s, chosen) && AllOpen(s, others)
    ensures r.status == Running && OnlyChokeFlags(s, r.s) && KeepsOptimistic(s, r.s)
    ensures forall c | c in chosen && c !in others :: !r.s.conns[c].choked
    ensures forall c | c in others && c !in chosen ::
              r.s.conns[c].choked == (s.conns[c].choked || !s.conns[c].optimistic)
    ensures forall c | c in s.conns && c !in chosen && c !in others :: r.s.conns[c] == s.conns[c]
    ensures forall c :: Send(c, Signal(Unchoke)) in r.out <==> c in chosen && s.conns[c].choked
    ensures forall c | c !in chosen :: Send(c, Signal(Choke)) in r.out <==>
              c in others && !s.conns[c].choked && !s.conns[c].optimistic
  {
    var a := UnchokeAll(s, chosen);
    var b := ChokeRest(a.s, others);
    UnchokeAllSends(s, chosen);
    ChokeRestSends(a.s, others);
    ChokeFlagsTrans(s, a.s, b.s);
    KeepsTrans(s, a.s, b.s);
    assert forall o | o in a.out :: o.Send? && o.msg == Signal(Unchoke);
    assert forall o | o in b.out :: o.Send? && o.msg == Signal(Choke);
    Step(b.s, a.out + b.out, Running)
  }

  lemma ChokeFlagsTrans(s: State, t: State, u: State)
    requires OnlyChokeFlags(s, t) && OnlyChokeFlags(t, u)
    ensures OnlyChokeFlags(s, u)
  {
  }

  /** The rate of a listed connection. */
  function Rate(s: State, c: Int32): real
    requires c in s.conns
  {
    s.conns[c].rate
  }

  /**
   `findHighestRatePeer`: start with the first id and move to each later one
   whose rate is at least the best so far (`<=`), so the last of several
   equal maxima wins.
   */
  function Highest(s: State, ids: seq<Int32>): (h: Int32)
    requires |ids| > 0 && AllOpen(s, ids)
    ensures h in ids
    ensures forall c | c in ids :: Rate(s, c) <= Rate(s, h)
    decreases |ids|
  {
    if |ids| == 1 then
      assert forall c | c in ids :: c == ids[0];
      ids[0]
    else
      var front := ids[..|ids| - 1];
      var b := Highest(s, front);
      var last := ids[|ids| - 1];
      assert ids == front + [last];
      if Rate(s, b) <= Rate(s, last) then last else b
  }

  /** Ties go to the later id: no id after the chosen one has an equal (or higher) rate. */
  lemma {:induction false} HighestIsLastMax(s: State, ids: seq<Int32>)
    requires |ids| > 0 && AllOpen(s, ids)
    ensures exists j | 0 <= j < |ids| :: ids[j] == Highest(s, ids)
              && forall m | j < m < |ids| :: Rate(s, ids[m]) < Rate(s, Highest(s, ids))
  {
    var h := Highest(s, ids);
    if |ids| == 1 {
      assert ids[0] == h;
    } else {
      var front := ids[..|ids| - 1];
      var last := ids[|ids| - 1];
      assert ids == front + [last];
      assert forall c | c in front :: c in ids;
      if h == last && Rate(s, Highest(s, front)) <= Rate(s, last) {
        assert ids[|ids| - 1] == h;
      } else {
        HighestIsLastMax(s, front);
        var j :| 0 <= j < |front| && front[j] == Highest(s, front)
                 && forall m | j < m < |front| :: Rate(s, front[m]) < Rate(s, Highest(s, front));
        assert ids[j] == h;
        forall m | j < m < |ids| ensures Rate(s, ids[m]) < Rate(s, h) {
          if m < |front| {
            assert ids[m] == front[m];
          }
        }
      }
    }
  }

  /**
   The rate-ranked loop of `checkPreferenceAndSendChokeUnchoke`: up to n
   times, unchoke the fastest id and record it, then `interestedPeers.remove(peerId)`.
   That call is `List.remove(int index)`: it removes the element at POSITION
   peerId, and throws when peerId is not a position of the list. Returns the
   step, the recorded ids and what is left of the list.
   */
  function Rank(s: State, pool: seq<Int32>, n: nat): (r: (Step, seq<Int32>, seq<Int32>))
    requires AllOpen(s, pool)
    ensures r.0.status != Exited && OnlyChokeFlags(s, r.0.s) && NoNewChoke(s, r.0.s)
    ensures |r.1| <= n
    ensures forall c | c in r.1 :: c in pool && !r.0.s.conns[c].choked
    ensures forall c | c in s.conns && c !in r.1 :: r.0.s.conns[c] == s.conns[c]
    ensures n > 0 && |pool| > 0 ==> |r.1| > 0 && r.1[0] == Highest(s, pool)
    ensures r.0.status == Running ==> multiset(r.2) <= multiset(pool) && AllOpen(s, r.2)
    ensures r.0.status == Running ==> |r.1| == Pieces.Min(n, |pool|) && |r.2| == |pool| - |r.1|
    decreases n
  {
    if n == 0 || |pool| == 0 then (Step(s, [], Running), [], pool)
    else
      var h := Highest(s, pool);
      var a := SendUnchoke(s, h);
      if h < 0 || h >= |pool| then (Step(a.s, a.out, Crashed), [h], pool)
      else
        var rest := RemoveAt(pool, h);
        var b := Rank(a.s, rest, n - 1);
        ChokeFlagsTrans(s, a.s, b.0.s);
        SubMultisetWithin(b.2, pool);
        (Step(b.0.s, a.out + b.0.out, b.0.status), [h] + b.1, b.2)
  }

  /**
   `checkPreferenceAndSendChokeUnchoke`: with at most k candidates, record
   and unchoke them all in order; otherwise rank k of them by rate and choke
   the rest unless choked already or optimistically unchoked.
   */
  function Prefer(s: State, ids: seq<Int32>, k: nat): (r: Tick)
    requires AllOpen(s, ids)
    ensures r.step.status != Exited && OnlyChokeFlags(s, r.step.s) && KeepsOptimistic(s, r.step.s)
    ensures forall c | c in s.conns && c !in ids :: r.step.s.conns[c] == s.conns[c]
    ensures |ids| <= k ==> r.step == UnchokeAll(s, ids) && r.preferred == ids + seq(k - |ids|, _ => 0)
    ensures |ids| > k ==> r == PreferRanked(s, ids, k)
  {
    if |ids| <= k then Tick(UnchokeAll(s, ids), ids + seq(k - |ids|, _ => 0))
    else PreferRanked(s, ids, k)
  }

  /**
   The branch of `checkPreferenceAndSendChokeUnchoke` for more than k
   candidates: it throws exactly when the ranking throws. Otherwise the
   array holds the k ranked ids, the ranked ids that the positional removal
   took out of the list end unchoked, every id still in the list ends
   choked unless it is optimistically unchoked or was choked before and not
   ranked, and an id the removal took out without ranking it is left as it
   was.
   */
  function PreferRanked(s: State, ids: seq<Int32>, k: nat): (r: Tick)
    requires AllOpen(s, ids) && |ids| > k
    ensures r.step.status != Exited && OnlyChokeFlags(s, r.step.s) && KeepsOptimistic(s, r.step.s)
    ensures forall c | c in s.conns && c !in ids :: r.step.s.conns[c] == s.conns[c]
    ensures var ranked := Rank(s, ids, k);
            && (r.step.status == Crashed <==> ranked.0.status == Crashed)
            && (r.step.status == Running ==>
                  && r.preferred == ranked.1
                  && (forall c | c in ranked.1 && c !in ranked.2 :: !r.step.s.conns[c].choked)
                  && (forall c | c in ranked.2 ::
                        r.step.s.conns[c].choked == ((s.conns[c].choked && c !in ranked.1) || !s.conns[c].optimistic))
                  && (forall c | c in s.conns && c !in ranked.1 && c !in ranked.2 :: r.step.s.conns[c] == s.conns[c]))
  {
    var ranked := Rank(s, ids, k);
    if ranked.0.status != Running then Tick(ranked.0, ranked.1)
    else
      var b := ChokeRest(ranked.0.s, ranked.2);
      KeepsTrans(s, ranked.0.s, b.s);
      SubMultisetWithin(ranked.2, ids);
      Tick(Step(b.s, ranked.0.out + b.out, Running), ranked.1 + seq(k - |ranked.1|, _ => 0))
  }

  /** xs is ys with some elements left out and the others kept in their order. */
  predicate SubseqOf(xs: seq<Int32>, ys: seq<Int32>)
    decreases |ys|
  {
    if |ys| == 0 then |xs| == 0
    else SubseqOf(xs, ys[1..]) || (|xs| > 0 && xs[0] == ys[0] && SubseqOf(xs[1..], ys[1..]))
  }

  /** The ids of the list whose connection is interested (and, with `rated`, has a rate of at least 0). */
  function Select(s: State, order: seq<Int32>, rated: bool): (ids: seq<Int32>)
    requires AllOpen(s, order)
    ensures AllOpen(s, ids)
    ensures forall c :: c in ids <==> c in order && s.conns[c].interested && (rated ==> s.conns[c].rate >= 0.0)
    ensures Distinct(order) ==> Distinct(ids)
    ensures SubseqOf(ids, order)
    decreases |order|
  {
    if |order| == 0 then []
    else
      var rest := Select(s, order[1..], rated);
      var c := order[0];
      assert forall x | x in order :: x == c || x in order[1..];
      if s.conns[c].interested && (rated ==> s.conns[c].rate >= 0.0) then [c] + rest else rest
  }

  /**
   The list a pass of ChokeUnchokeHandler builds from the connection map:
   every interested connection (with `rated`, every interested connection
   whose rate is not negative) and no other, each once, in the map's
   iteration order.
   */
  function Interested(s: State, order: seq<Int32>, rated: bool): (ids: seq<Int32>)
    requires Enumerates(order, s.conns.Keys)
    ensures AllOpen(s, ids) && Distinct(ids) && SubseqOf(ids, order)
    ensures forall c | c in s.conns :: c in ids <==> s.conns[c].interested && (rated ==> s.conns[c].rate >= 0.0)
  {
    Select(s, order, rated)
  }

  /** The ids of the preferred array the log line lists: its non-zero entries. */
  function Logged(preferred: seq<Int32>): (ids: seq<Int32>)
    ensures forall c :: c in ids <==> c in preferred && c != 0
    ensures |ids| <= |preferred|
  {
    if |preferred| == 0 then []
    else
      var rest := Logged(preferred[1..]);
      assert forall x | x in preferred :: x == preferred[0] || x in preferred[1..];
      if preferred[0] != 0 then [preferred[0]] + rest else rest
  }

  /**
   One pass of the ChokeUnchokeHandler loop. When the counter has reached the
   swarm size the loop is over and the process exits; a negative number of
   preferred neighbours makes `new int[k]` throw. Otherwise the branch is chosen
   by the local hasFile flag: with the file, the interested connections (none
   means the pass does nothing); without it, the interested connections whose
   rate is not negative.
   */
  function ChokeTick(s: State, order: seq<Int32>, picks: seq<nat>): (r: Tick)
    requires s.self in s.peers && Enumerates(order, s.conns.Keys)
    requires s.preferred >= 0 && Local(s).hasFile == HAS_FILE ==>
               |Interested(s, order, false)| > s.preferred ==>
                 PicksFit(picks, |Interested(s, order, false)|, s.preferred)
    ensures r.step.status == Exited <==> s.having >= |s.peers|
    ensures r.step.status == Exited ==> r.step.s == s && r.step.out == []
    ensures s.having < |s.peers| && s.preferred < 0 ==> r.step == Step(s, [], Crashed)
    ensures OnlyChokeFlags(s, r.step.s) && KeepsOptimistic(s, r.step.s)
    ensures forall c | c in s.conns && !s.conns[c].interested :: r.step.s.conns[c] == s.conns[c]
    ensures r.step.status == Running ==> |r.preferred| == s.preferred as int
  {
    if s.having >= |s.peers| then Tick(Step(s, [], Exited), [])
    else if s.preferred < 0 then Tick(Step(s, [], Crashed), [])
    else if Local(s).hasFile == HAS_FILE then
      var ids := Interested(s, order, false);
      if |ids| == 0 then Tick(Step(s, [], Running), seq(s.preferred as nat, _ => 0))
      else
        SendData(s, ids, s.preferred as nat, picks)
    else
      Prefer(s, Interested(s, order, true), s.preferred as nat)
  }

  /**
   With the file, a pass never throws and fills a k-entry array. With no
   interested connection it changes nothing; with at most k, all of them are
   unchoked (UNCHOKE to those that were choked) and the array stays zero;
   with more, k distinct interested connections drawn at random end
   unchoked and fill the array, and every other interested connection is
   choked unless it was choked already or is optimistically unchoked.
   */
  lemma ChokeTickWithFile(s: State, order: seq<Int32>, picks: seq<nat>)
    requires s.self in s.peers && Enumerates(order, s.conns.Keys)
    requires s.having < |s.peers| && s.preferred >= 0 && Local(s).hasFile == HAS_FILE
    requires |Interested(s, order, false)| > s.preferred ==>
               PicksFit(picks, |Interested(s, order, false)|, s.preferred)
    ensures ChokeTick(s, order, picks).step.status == Running
    ensures |ChokeTick(s, order, picks).preferred| == s.preferred as nat
    ensures (forall c | c in s.conns :: !s.conns[c].interested) ==>
              ChokeTick(s, order, picks).step == Step(s, [], Running)
    ensures var r := ChokeTick(s, order, picks);
            |Interested(s, order, false)| <= s.preferred ==>
              && (forall j | 0 <= j < |r.preferred| :: r.preferred[j] == 0)
              && (forall c | c in s.conns ::
                    r.step.s.conns[c].choked == (s.conns[c].choked && !s.conns[c].interested))
              && (forall c :: Send(c, Signal(Unchoke)) in r.step.out <==>
                    c in s.conns && s.conns[c].interested && s.conns[c].choked)
    ensures var r := ChokeTick(s, order, picks);
            |Interested(s, order, false)| > s.preferred ==>
              && Distinct(r.preferred)
              && (forall c | c in r.preferred :: c in s.conns && s.conns[c].interested && !r.step.s.conns[c].choked)
              && (forall c | c in s.conns && s.conns[c].interested && c !in r.preferred ::
                    r.step.s.conns[c].choked == (s.conns[c].choked || !s.conns[c].optimistic))
  {
    var ids := Interested(s, order, false);
    var k := s.preferred as nat;
    if |ids| > 0 {
      assert ids[0] in s.conns && s.conns[ids[0]].interested;
    }
    if |ids| > k {
      SendDataSplits(s, ids, k, picks);
    } else if |ids| > 0 {
      UnchokeAllSends(s, ids);
    }
  }

  /**
   Without the file, a pass is the rate-ranked selection over the
   interested connections whose rate is not negative. With at most k of
   them, all are unchoked and fill the front of the array; with more, the
   first entry is the fastest of them, and the pass can only throw through
   the rate-ranked removal.
   */
  lemma ChokeTickWithoutFile(s: State, order: seq<Int32>, picks: seq<nat>)
    requires s.self in s.peers && Enumerates(order, s.conns.Keys)
    requires s.having < |s.peers| && s.preferred >= 0 && Local(s).hasFile != HAS_FILE
    ensures ChokeTick(s, order, picks) == Prefer(s, Interested(s, order, true), s.preferred as nat)
    ensures var r := ChokeTick(s, order, picks);
            var ids := Interested(s, order, true);
            |ids| <= s.preferred ==>
              && r.step.status == Running
              && r.preferred == ids + seq(s.preferred as nat - |ids|, _ => 0)
              && (forall c | c in s.conns ::
                    r.step.s.conns[c].choked ==
                      (s.conns[c].choked && !(s.conns[c].interested && s.conns[c].rate >= 0.0)))
    ensures var r := ChokeTick(s, order, picks);
            var ids := Interested(s, order, true);
            |ids| > s.preferred > 0 && r.step.status == Running ==> r.preferred[0] == Highest(s, ids)
    ensures ChokeTick(s, order, picks).step.status == Crashed ==>
              |Interested(s, order, true)| > s.preferred as nat
              && Rank(s, Interested(s, order, true), s.preferred as nat).0.status == Crashed
  {
  }
}

=== FILE: findings.dfy ===
/**
 Three places where the code does something its authors evidently did not
 intend, each shown on the definition as written (in Neighbours and
 Handlers) and set beside a corrected definition with the intended
 property proved about it.
 */
module Findings {
  import opened JavaTypes
  import opened MessageTypes
  import opened Wire
  import opened Swarm
  import opened Interest
  import opened Neighbours
  import Handlers
  import Pieces

  // ---------------------------------------------------------------------
  // 1. `interestedPeers.remove(peerId)` removes by position, not by value.
  // ---------------------------------------------------------------------

  /**
   Peer ids are not positions: when every id is at least the length of the
   list (ids such as 1001, 1002, 1003 in a swarm of fewer than 1001 peers),
   the rate-ranked selection throws at its first removal.
   */
  lemma RankCrashesOnPeerIds(s: State, pool: seq<Int32>, n: nat)
    requires AllOpen(s, pool) && n > 0 && |pool| > 0
    requires forall c | c in pool :: c >= |pool|
    ensures Rank(s, pool, n).0.status == Crashed
  {
  }

  /** The concrete case: three interested peers 1001, 1002, 1003 and two preferred neighbours. */
  lemma PreferCrashesExample(s: State)
    requires 1001 in s.conns && 1002 in s.conns && 1003 in s.conns
    ensures Prefer(s, [1001, 1002, 1003], 2).step.status == Crashed
  {
    RankCrashesOnPeerIds(s, [1001, 1002, 1003], 2);
  }

  /**
   The removal also goes wrong without throwing. Ids 0, 1 and 2 are
   interested, none optimistically unchoked, 1 and 2 unchoked, 2 the
   fastest, one preferred neighbour: 2 is unchoked and recorded, then
   position 2 (id 1) is removed, so the closing loop chokes the preferred
   id 2 and leaves id 1 unchoked.
   */
  lemma PreferChokesPreferredExample(s: State)
    requires 0 in s.conns && 1 in s.conns && 2 in s.conns
    requires !s.conns[0].optimistic && !s.conns[1].optimistic && !s.conns[2].optimistic
    requires !s.conns[1].choked && !s.conns[2].choked
    requires Rate(s, 0) < Rate(s, 2) && Rate(s, 1) < Rate(s, 2)
    ensures var r := Prefer(s, [2, 0, 1], 1);
            && r.step.status == Running && r.preferred == [2]
            && r.step.s.conns[2].choked && !r.step.s.conns[1].choked
  {
    var pool: seq<Int32> := [2, 0, 1];
    var left: seq<Int32> := [2, 0];
    assert Highest(s, left) == 2 by {
      assert left[..1] == [2];
    }
    assert Highest(s, pool) == 2 by {
      assert pool[..2] == left;
    }
    assert RemoveAt(pool, 2) == left;
    var a := SendUnchoke(s, 2);
    assert a.s == s && a.out == [];
    var inner := Rank(a.s, left, 0);
    assert inner.0.s == s && inner.0.out == [] && inner.0.status == Running && inner.1 == [] && inner.2 == left;
    var ranked := Rank(s, pool, 1);
    assert ranked.0.s == s && ranked.0.status == Running;
    assert ranked.1 == [2] && ranked.2 == left;
  }

  /** The position of the first occurrence of x (what `List.remove(Object)` removes). */
  function IndexOf(xs: seq<Int32>, x: Int32): (j: nat)
    requires x in xs
    ensures j < |xs| && xs[j] == x
    ensures forall m | 0 <= m < j :: xs[m] != x
  {
    if xs[0] == x then 0 else 1 + IndexOf(xs[1..], x)
  }

  /**
   The evidently intended selection: up to n times, unchoke the fastest
   remaining id and remove that id from the list.
   */
  function RankByValue(s: State, pool: seq<Int32>, n: nat): (r: (Step, seq<Int32>, seq<Int32>))
    requires AllOpen(s, pool)
    ensures r.0.status == Running && OnlyChokeFlags(s, r.0.s) && NoNewChoke(s, r.0.s)
    ensures multiset(r.1) + multiset(r.2) == multiset(pool)
    ensures AllOpen(s, r.1) && AllOpen(s, r.2)
    ensures |r.1| == Pieces.Min(n, |pool|)
    ensures forall a, b | a in r.1 && b in r.2 :: Rate(s, b) <= Rate(s, a)
    ensures forall c | c in r.1 :: !r.0.s.conns[c].choked
    ensures forall c | c in s.conns && c !in r.1 :: r.0.s.conns[c] == s.conns[c]
    decreases n
  {
    if n == 0 || |pool| == 0 then (Step(s, [], Running), [], pool)
    else
      var h := Highest(s, pool);
      var a := SendUnchoke(s, h);
      var rest := RemoveAt(pool, IndexOf(pool, h));
      var b := RankByValue(a.s, rest, n - 1);
      RankStep(s, a.s, pool, h, rest, b.1, b.2);
      (Step(b.0.s, a.out + b.0.out, b.0.status), [h] + b.1, b.2)
  }

  /** One step of RankByValue keeps the partition and the order between chosen and left-over ids. */
  lemma RankStep(s: State, t: State, pool: seq<Int32>, h: Int32, rest: seq<Int32>,
                 chosen: seq<Int32>, left: seq<Int32>)
    requires AllOpen(s, pool) && h in pool
    requires forall c | c in pool :: Rate(s, c) <= Rate(s, h)
    requires multiset(rest) + multiset{h} == multiset(pool)
    requires OnlyChokeFlags(s, t)
    requires AllOpen(t, rest)
    requires multiset(chosen) + multiset(left) == multiset(rest)
    requires AllOpen(t, chosen) && AllOpen(t, left)
    requires forall a, b | a in chosen && b in left :: Rate(t, b) <= Rate(t, a)
    ensures multiset([h] + chosen) + multiset(left) == multiset(pool)
    ensures AllOpen(s, [h] + chosen) && AllOpen(s, left)
    ensures forall a, b | a in [h] + chosen && b in left :: Rate(s, b) <= Rate(s, a)
  {
    assert multiset([h] + chosen) == multiset{h} + multiset(chosen);
    forall b | b in left ensures b in pool && Rate(t, b) == Rate(s, b) {
      assert b in multiset(left);
      assert b in multiset(rest);
      assert b in multiset(pool);
    }
    forall a | a in chosen ensures a in pool && Rate(t, a) == Rate(s, a) {
      assert a in multiset(chosen);
      assert a in multiset(rest);
      assert a in multiset(pool);
    }
  }

  /**
   `checkPreferenceAndSendChokeUnchoke` with the removal by value: it never
   throws, and its branch for more than k candidates is PreferByValueRanked.
   */
  function PreferByValue(s: State, ids: seq<Int32>, k: nat): (r: Tick)
    requires AllOpen(s, ids)
    ensures r.step.status == Running && OnlyChokeFlags(s, r.step.s) && KeepsOptimistic(s, r.step.s)
    ensures |r.preferred| == k
    ensures forall c | c in s.conns && c !in ids :: r.step.s.conns[c] == s.conns[c]
    ensures |ids| <= k ==> r.step == UnchokeAll(s, ids) && r.preferred == ids + seq(k - |ids|, _ => 0)
    ensures |ids| > k ==> r == PreferByValueRanked(s, ids, k)
  {
    if |ids| <= k then Tick(UnchokeAll(s, ids), ids + seq(k - |ids|, _ => 0))
    else PreferByValueRanked(s, ids, k)
  }

  /**
   More than k candidates, removal by value: k of them are recorded, none
   slower than a candidate left out. With distinct candidates, exactly the
   recorded ones end unchoked, and every other candidate is choked unless it
   is optimistically unchoked or was choked already. Non-candidates are
   left alone.
   */
  function PreferByValueRanked(s: State, ids: seq<Int32>, k: nat): (r: Tick)
    requires AllOpen(s, ids) && |ids| > k
    ensures r.step.status == Running && OnlyChokeFlags(s, r.step.s) && KeepsOptimistic(s, r.step.s)
    ensures |r.preferred| == k && AllOpen(s, r.preferred)
    ensures forall c | c in s.conns && c !in ids :: r.step.s.conns[c] == s.conns[c]
    ensures forall a, b | a in r.preferred && b in ids && b !in r.preferred :: Rate(s, b) <= Rate(s, a)
    ensures Distinct(ids) ==>
              && Distinct(r.preferred)
              && (forall c | c in r.preferred :: c in ids && !r.step.s.conns[c].choked)
              && (forall c | c in ids && c !in r.preferred ::
                    r.step.s.conns[c].choked == (s.conns[c].choked || !s.conns[c].optimistic))
  {
    var ranked := RankByValue(s, ids, k);
    PartsWithin(ranked.1, ranked.2, ids);
    assert Distinct(ids) ==> Distinct(ranked.1) && forall c | c in ranked.1 :: c !in ranked.2 by {
      if Distinct(ids) {
        DistinctParts(ranked.1, ranked.2, ids);
      }
    }
    var b := ChokeRest(ranked.0.s, ranked.2);
    KeepsTrans(s, ranked.0.s, b.s);
    Tick(Step(b.s, ranked.0.out + b.out, Running), ranked.1)
  }

  /** Two parts of a whole hold its elements and nothing else. */
  lemma PartsWithin(a: seq<Int32>, b: seq<Int32>, whole: seq<Int32>)
    requires multiset(a) + multiset(b) == multiset(whole)
    ensures forall c :: c in whole <==> c in a || c in b
  {
    SubMultisetWithin(a, whole);
    SubMultisetWithin(b, whole);
    forall c | c in whole ensures c in a || c in b {
      assert c in multiset(a) + multiset(b);
    }
  }

  // ---------------------------------------------------------------------
  // 2. A repeated PIECE is counted again and marks the file complete early.
  // ---------------------------------------------------------------------

  /**
   With two pieces, receiving piece 0 twice raises the chunk count to 2, the
   bitfield length, so the peer marks itself as holding the file although
   piece 1 never arrived.
   */
  lemma DuplicatePieceMarksFileEarly(s: State, data: seq<Byte>)
    requires Ready(s) && |s.chunks| == |LocalBits(s)| == 2
    requires Local(s).chunkCount == 0 && Local(s).hasFile == NO_FILE
    ensures Handlers.Store(s, 0, data).Some?
    ensures var t := Handlers.Store(Handlers.Store(s, 0, data).value, 0, data);
            && t.Some? && Local(t.value).hasFile == HAS_FILE
            && LocalBits(t.value)[1] == LocalBits(s)[1]
  {
  }

  /** The local chunk count equals the number of pieces the bitfield marks as held. */
  predicate Counted(s: State)
    requires Ready(s)
  {
    Local(s).chunkCount == Ones(LocalBits(s))
  }

  /** The evidently intended store: count a piece only the first time it arrives. */
  function StoreOnce(s: State, i: Int32, data: seq<Byte>): (r: Option<State>)
    requires Ready(s)
    ensures r.Some? <==> 0 <= i < |s.chunks| && i < |LocalBits(s)|
    ensures r.Some? ==>
              && Ready(r.value) && r.value.chunks == s.chunks[i := Some(data)]
              && LocalBits(r.value) == LocalBits(s)[i := HAS_FILE]
              && (Counted(s) ==> Counted(r.value))
              && (Counted(s) && Local(r.value).hasFile == HAS_FILE ==>
                    Local(s).hasFile == HAS_FILE || forall j | 0 <= j < |LocalBits(r.value)| :: LocalBits(r.value)[j] == HAS_FILE)
  {
    if i < 0 || i >= |s.chunks| || i >= |LocalBits(s)| then None
    else
      var d := Local(s);
      var bits := LocalBits(s)[i := HAS_FILE];
      var count := d.chunkCount + (if LocalBits(s)[i] == HAS_FILE then 0 else 1);
      var flag := if count == |bits| then HAS_FILE else d.hasFile;
      OnesSet(LocalBits(s), i as nat);
      OnesFull(bits);
      Some(SetPeer(s.(chunks := s.chunks[i := Some(data)]), s.self,
                   d.(bitfield := Some(bits), chunkCount := count, hasFile := flag)))
  }

  /** Storing the same piece twice with StoreOnce is the same as storing it once. */
  lemma StoreOnceIdempotent(s: State, i: Int32, data: seq<Byte>)
    requires Ready(s) && 0 <= i < |s.chunks| && i < |LocalBits(s)|
    ensures StoreOnce(StoreOnce(s, i, data).value, i, data) == StoreOnce(s, i, data)
  {
    var t := StoreOnce(s, i, data).value;
    var u := StoreOnce(t, i, data).value;
    assert LocalBits(t)[i := HAS_FILE] == LocalBits(t);
    assert t.chunks[i := Some(data)] == t.chunks;
    assert u.chunks == t.chunks;
    assert Local(u) == Local(t);
    assert u.peers == t.peers;
  }

  // ---------------------------------------------------------------------
  // 3. A peer already counted as holding the file is counted again.
  // ---------------------------------------------------------------------

  /**
   A HAVE from a peer whose bitfield is already full (and which is already
   marked as holding the file) bumps the counter again: the count of peers
   holding the file overshoots, and every loop waiting on it can stop early.
   */
  lemma RepeatedHaveCountsAgain(s: State, c: Int32, i: Int32)
    requires Ready(s) && c in s.conns
    requires var id := s.conns[c].id;
             && id in s.peers && s.peers[id].bitfield.Some?
             && |s.peers[id].bitfield.value| == |LocalBits(s)|
             && (forall j | 0 <= j < |LocalBits(s)| :: s.peers[id].bitfield.value[j] == HAS_FILE)
             && s.peers[id].hasFile == HAS_FILE
    requires 0 <= i < |LocalBits(s)|
    ensures Handlers.OnHave(s, c, IntBytes(i)).status == Running
    ensures Handlers.OnHave(s, c, IntBytes(i)).s.having == s.having + 1
  {
    var id := s.conns[c].id;
    var bits := s.peers[id].bitfield.value;
    IntRoundTrip(i);
    assert bits[i := HAS_FILE] == bits;
    OnesFull(bits);
  }

  /**
   The evidently intended HAVE: as written, except that the counter is
   bumped only when the sender was not already marked as holding the file.
   */
  function OnHaveOnce(s: State, c: Int32, payload: JavaArray<Byte>): (r: Step)
    requires Ready(s) && c in s.conns
    ensures SameShape(s, r.s) && Ready(r.s) && r.s.chunks == s.chunks && r.s.conns == s.conns
    ensures r.s.having == s.having || r.s.having == s.having + 1
    ensures r.s.having == s.having + 1 ==>
              var id := s.conns[c].id;
              id in s.peers && s.peers[id].hasFile != HAS_FILE && r.s.peers[id].hasFile == HAS_FILE
  {
    if |payload| < INT_SIZE then Step(s, [], Crashed)
    else
      var i := IntAt(payload, 0);
      var id := s.conns[c].id;
      if id !in s.peers || s.peers[id].bitfield.None? then Step(s, [], Crashed)
      else
        var bits := s.peers[id].bitfield.value;
        if i < 0 || i >= |bits| then Step(s, [], Crashed)
        else
          var t := MarkHaveOnce(s, id, bits[i := HAS_FILE]);
          Handlers.Answer(t, c, Decide(LocalBits(t), Some(bits[i := HAS_FILE])))
  }

  /** The bookkeeping of OnHaveOnce: Handlers.MarkHave with the counter guarded. */
  function MarkHaveOnce(s: State, id: Int32, bits: JavaArray<Int32>): (t: State)
    requires Ready(s) && id in s.peers
    ensures SameShape(s, t) && Ready(t) && t.chunks == s.chunks && t.conns == s.conns
    ensures t.peers[id].bitfield == Some(bits)
    ensures t.having == s.having || t.having == s.having + 1
    ensures t.having == s.having + 1 ==> s.peers[id].hasFile != HAS_FILE && t.peers[id].hasFile == HAS_FILE
  {
    var first := s.peers[id].hasFile != HAS_FILE;
    var s1 := SetPeer(s, id, s.peers[id].(bitfield := Some(bits)));
    if Ones(bits) == |LocalBits(s1)|
    then
      var s2 := SetPeer(s1, id, s1.peers[id].(hasFile := HAS_FILE));
      if first then Bump(s2) else s2
    else s1
  }

  /** Marking the same bitfield twice is marking it once. */
  lemma MarkHaveOnceIdempotent(s: State, id: Int32, bits: JavaArray<Int32>)
    requires Ready(s) && id in s.peers
    ensures MarkHaveOnce(MarkHaveOnce(s, id, bits), id, bits) == MarkHaveOnce(s, id, bits)
  {
    var t := MarkHaveOnce(s, id, bits);
    var t1 := SetPeer(t, id, t.peers[id].(bitfield := Some(bits)));
    assert t.peers[id].(bitfield := Some(bits)) == t.peers[id];
    assert t1 == t;
    if Ones(bits) == |LocalBits(t1)| {
      assert t.peers[id].hasFile == HAS_FILE;
      assert t1.peers[id].(hasFile := HAS_FILE) == t.peers[id];
    }
  }

  /** The same HAVE received twice leaves the state as receiving it once. */
  lemma OnHaveOnceIdempotent(s: State, c: Int32, payload: JavaArray<Byte>)
    requires Ready(s) && c in s.conns
    ensures OnHaveOnce(OnHaveOnce(s, c, payload).s, c, payload).s == OnHaveOnce(s, c, payload).s
  {
    if |payload| >= INT_SIZE {
      var i := IntAt(payload, 0);
      var id := s.conns[c].id;
      if id in s.peers && s.peers[id].bitfield.Some? && 0 <= i < |s.peers[id].bitfield.value| {
        var bits := s.peers[id].bitfield.value[i := HAS_FILE];
        var t := MarkHaveOnce(s, id, bits);
        assert OnHaveOnce(s, c, payload).s == t;
        assert bits[i := HAS_FILE] == bits;
        MarkHaveOnceIdempotent(s, id, bits);
      }
    }
  }
}

=== FILE: handlers.dfy ===
/**
 The message handlers of MessageHandler (`handle*Message` and the dispatch
 in `handleReceivedMessage`), each a step of the thread that serves one
 connection. `c` is the peer id the connection is stored under; the handler
 reads and writes that connection's record.

 A handler that throws ends its thread (Message.run catches and drops the
 exception), so it returns Crashed with the state as it was when the
 exception was raised and the messages already sent.
 */
module Handlers {
  import opened JavaTypes
  import opened MessageTypes
  import opened Wire
  import opened Swarm
  import opened Interest
  import Pieces

  /** The one-message reply of `compareBitfieldAndSendInterestMessage`, or its exception. */
  function Answer(s: State, c: Int32, decision: Option<bool>): (r: Step)
    ensures r.s == s
    ensures decision.None? <==> r.status == Crashed
    ensures decision.None? ==> r.out == []
    ensures decision == Some(true) ==> r.status == Running && r.out == [Send(c, Signal(Interested))]
    ensures decision == Some(false) ==> r.status == Running && r.out == [Send(c, Signal(NotInterested))]
  {
    match decision
    case None => Step(s, [], Crashed)
    case Some(interested) =>
      Step(s, [Send(c, Signal(if interested then Interested else NotInterested))], Running)
  }

  /**
   `updateBitfieldStatusAndSendRequest`: REQUEST one of the candidate pieces,
   nothing when there is none, None when the scan throws. The random choice
   is `pick` reduced modulo the number of candidates.
   */
  function Follow(c: Int32, local: JavaArray<Int32>, remote: Option<seq<Int32>>, pick: nat): (r: Option<seq<Out>>)
    ensures r.None? <==> !Safe(local, remote)
    ensures r.Some? ==> |r.value| <= 1
    ensures r.Some? ==> (|r.value| == 1 <==> exists j :: Wanted(local, remote, j))
    ensures r.Some? && |r.value| == 1 ==>
              r.value[0].Send? && r.value[0].to == c && r.value[0].msg.RequestMsg?
              && Wanted(local, remote, r.value[0].msg.index)
  {
    match Candidates(local, remote)
    case None => None
    case Some(cs) =>
      if |cs| == 0 then Some([])
      else
        var b := cs[pick % |cs|];
        assert b in cs;
        Some([Send(c, RequestMsg(b))])
  }

  /** REQUEST: answer with PIECE(i, chunks[i]); a short payload, a bad index or a missing chunk throws. */
  function OnRequest(s: State, c: Int32, payload: JavaArray<Byte>): (r: Step)
    ensures r.s == s
    ensures r.status != Exited
    ensures r.status == Running <==>
              |payload| >= INT_SIZE && 0 <= IntAt(payload, 0) < |s.chunks| && s.chunks[IntAt(payload, 0)].Some?
    ensures r.status == Running ==>
              r.out == [Send(c, PieceMsg(IntAt(payload, 0), s.chunks[IntAt(payload, 0)].value))]
    ensures r.status == Crashed ==> r.out == []
    ensures Valid(s) ==> Valid(r.s)
    ensures NoExit(r.out)
  {
    if |payload| < INT_SIZE then Step(s, [], Crashed)
    else
      var i := IntAt(payload, 0);
      if i < 0 || i >= |s.chunks| || s.chunks[i].None? then Step(s, [], Crashed)
      else Step(s, [Send(c, PieceMsg(i, s.chunks[i].value))], Running)
  }

  /**
   HAVE(i): set entry i of the sender's bitfield; if its count of ones then
   equals the local bitfield length, mark the sender as holding the file and
   bump the counter (with no guard against doing so twice); then tell the
   sender whether we are interested.
   */
  function OnHave(s: State, c: Int32, payload: JavaArray<Byte>): (r: Step)
    requires Ready(s) && c in s.conns
    ensures SameShape(s, r.s) && Ready(r.s) && r.s.chunks == s.chunks && r.s.conns == s.conns
    ensures r.status != Exited
    ensures r.status == Running <==>
              |payload| >= INT_SIZE &&
              var id := s.conns[c].id;
              var i := IntAt(payload, 0);
              && id in s.peers && s.peers[id].bitfield.Some?
              && 0 <= i < |s.peers[id].bitfield.value|
              && var bits := s.peers[id].bitfield.value[i := HAS_FILE];
                 Decide(if id == s.self then bits else LocalBits(s), Some(bits)).Some?
    ensures s.conns[c].id != s.self ==> LocalBits(r.s) == LocalBits(s)
    ensures r.status == Running ==>
              |payload| >= INT_SIZE &&
              var id := s.conns[c].id;
              var i := IntAt(payload, 0);
              && id in s.peers && s.peers[id].bitfield.Some?
              && 0 <= i < |s.peers[id].bitfield.value|
              && r.s.peers[id].bitfield == Some(s.peers[id].bitfield.value[i := HAS_FILE])
              && r.s.peers[id].chunkCount == s.peers[id].chunkCount
              && (forall k | k in s.peers && k != id :: r.s.peers[k] == s.peers[k])
              && var full := Ones(r.s.peers[id].bitfield.value) == |LocalBits(r.s)|;
                 && r.s.having == s.having + (if full then 1 else 0)
                 && r.s.peers[id].hasFile == (if full then HAS_FILE else s.peers[id].hasFile)
                 && |r.out| == 1
                 && r.out[0] == Send(c, Signal(if exists j :: Wanted(LocalBits(r.s), r.s.peers[id].bitfield, j)
                                              then Interested else NotInterested))
    ensures Valid(s) ==> Valid(r.s)
    ensures NoExit(r.out)
  {
    if |payload| < INT_SIZE then Step(s, [], Crashed)
    else
      var i := IntAt(payload, 0);
      var id := s.conns[c].id;
      if id !in s.peers || s.peers[id].bitfield.None? then Step(s, [], Crashed)
      else
        var bits := s.peers[id].bitfield.value;
        if i < 0 || i >= |bits| then Step(s, [], Crashed)
        else
          var s2 := MarkHave(s, id, bits[i := HAS_FILE]);
          Answer(s2, c, Decide(LocalBits(s2), Some(bits[i := HAS_FILE])))
  }

  /**
   The bookkeeping of HAVE: the sender's bitfield becomes `bits`; if its
   count of ones equals the local bitfield length, the sender is marked as
   holding the file and the counter is bumped.
   */
  function MarkHave(s: State, id: Int32, bits: JavaArray<Int32>): (t: State)
    requires Ready(s) && id in s.peers && s.peers[id].bitfield.Some?
    ensures SameShape(s, t) && Ready(t) && t.chunks == s.chunks && t.conns == s.conns
    ensures t.peers[id].bitfield == Some(bits) && t.peers[id].chunkCount == s.peers[id].chunkCount
    ensures forall k | k in s.peers && k != id :: t.peers[k] == s.peers[k]
    ensures id != s.self ==> LocalBits(t) == LocalBits(s)
    ensures var full := Ones(bits) == |LocalBits(t)|;
            && t.having == s.having + (if full then 1 else 0)
            && t.peers[id].hasFile == (if full then HAS_FILE else s.peers[id].hasFile)
    ensures Valid(s) && id != s.self ==> Valid(t)
  {
    var s1 := SetPeer(s, id, s.peers[id].(bitfield := Some(bits)));
    if Ones(bits) == |LocalBits(s1)|
    then Bump(SetPeer(s1, id, s1.peers[id].(hasFile := HAS_FILE)))
    else s1
  }

  /**
   The first part of PIECE(i, data): store the data in slot i, set local bit
   i, add one to the local chunk count (even when the bit was already set)
   and set hasFile when the count equals the bitfield length. None when i is
   not a slot of the store or of the bitfield; the store is written first.
   */
  function Store(s: State, i: Int32, data: seq<Byte>): (r: Option<State>)
    requires Ready(s)
    ensures r.Some? <==> 0 <= i < |s.chunks| && i < |LocalBits(s)|
    ensures r.Some? ==>
              && SameShape(s, r.value) && Ready(r.value) && r.value.conns == s.conns
              && r.value.having == s.having
              && r.value.chunks == s.chunks[i := Some(data)]
              && LocalBits(r.value) == LocalBits(s)[i := HAS_FILE]
              && Local(r.value).chunkCount == Local(s).chunkCount + 1
              && Local(r.value).hasFile ==
                   (if Local(s).chunkCount + 1 == |LocalBits(s)| then HAS_FILE else Local(s).hasFile)
              && (forall k | k in s.peers && k != s.self :: r.value.peers[k] == s.peers[k])
  {
    if i < 0 || i >= |s.chunks| || i >= |LocalBits(s)| then None
    else
      var d := Local(s);
      var count := d.chunkCount + 1;
      var bits := LocalBits(s)[i := HAS_FILE];
      var flag := if count == |bits| then HAS_FILE else d.hasFile;
      Some(SetPeer(s.(chunks := s.chunks[i := Some(data)]), s.self,
                   d.(bitfield := Some(bits), chunkCount := count, hasFile := flag)))
  }

  /**
   `updatePeerFileStatus`: when every local bit is 1, reassemble the chunks
   into a buffer of the file size, write it out, set hasFile and bump the
   counter. It does this each time it finds the bitfield full. None when the
   reassembly throws (a missing chunk, or more bytes than the buffer holds).
   */
  function Complete(s: State): (r: Option<Step>)
    requires Ready(s)
    ensures Ones(LocalBits(s)) != |LocalBits(s)| ==> r == Some(Step(s, [], Running))
    ensures Ones(LocalBits(s)) == |LocalBits(s)| ==>
              (r.Some? <==> Pieces.Reassemble(s.chunks, s.fileSize).Some?)
    ensures Ones(LocalBits(s)) == |LocalBits(s)| && r.Some? ==>
              && r.value.out == [WriteFile(Pieces.Reassemble(s.chunks, s.fileSize).value)]
              && r.value.s == Bump(SetPeer(s, s.self, Local(s).(hasFile := HAS_FILE)))
    ensures r.Some? ==>
              && SameShape(s, r.value.s) && Ready(r.value.s)
              && r.value.s.chunks == s.chunks && r.value.s.conns == s.conns
              && LocalBits(r.value.s) == LocalBits(s)
              && (forall k | k in s.peers && k != s.self :: r.value.s.peers[k] == s.peers[k])
              && (Valid(s) ==> Valid(r.value.s))
              && NoExit(r.value.out) && r.value.status == Running
  {
    if Ones(LocalBits(s)) != |LocalBits(s)| then Some(Step(s, [], Running))
    else
      match Pieces.Reassemble(s.chunks, s.fileSize)
      case None => None
      case Some(file) =>
        Some(Step(Bump(SetPeer(s, s.self, Local(s).(hasFile := HAS_FILE))), [WriteFile(file)], Running))
  }

  /**
   The rest of PIECE once the piece is stored: a follow-up REQUEST if the
   connection is not choked, the sender's rate (-1 when the sender holds the
   whole file, else the measured rate), the completion check, and HAVE(i)
   to every connection.
   */
  function AfterStore(s: State, c: Int32, i: Int32, measured: real, pick: nat, order: seq<Int32>): (r: Step)
    requires Ready(s) && c in s.conns && Enumerates(order, s.conns.Keys)
    ensures SameShape(s, r.s) && Ready(r.s) && r.s.chunks == s.chunks
    ensures r.status != Exited
    ensures LocalBits(r.s) == LocalBits(s) && Local(r.s).chunkCount == Local(s).chunkCount
    ensures r.status == Running ==>
              EndsWith(r.out, Broadcast(order, HaveMsg(i)))
  {
    var id := s.conns[c].id;
    if id !in s.peers then Step(s, [], Crashed)
    else
      var follow := if s.conns[c].choked then Some([]) else Follow(c, LocalBits(s), s.peers[id].bitfield, pick);
      if follow.None? then Step(s, [], Crashed)
      else
        var rate := if s.peers[id].hasFile == HAS_FILE then -1.0 else measured;
        var t := SetConn(s, c, s.conns[c].(rate := rate));
        assert t.peers == s.peers && t.chunks == s.chunks && SameShape(s, t);
        Settle(t, follow.value, i, order)
  }

  /**
   The end of PIECE once the rate is recorded: the completion check, then
   HAVE(i) to every connection. `sent` is what went out before; a throwing
   completion check ends the step with just that.
   */
  function Settle(s: State, sent: seq<Out>, i: Int32, order: seq<Int32>): (r: Step)
    requires Ready(s)
    ensures SameShape(s, r.s) && Ready(r.s) && r.s.chunks == s.chunks && r.s.conns == s.conns
    ensures LocalBits(r.s) == LocalBits(s) && Local(r.s).chunkCount == Local(s).chunkCount
    ensures forall k | k in s.peers && k != s.self :: r.s.peers[k] == s.peers[k]
    ensures Valid(s) ==> Valid(r.s)
    ensures r.status != Exited
    ensures |r.out| >= |sent| && r.out[..|sent|] == sent
    ensures forall j | |sent| <= j < |r.out| :: r.out[j].Send? ==> r.out[j].msg.HaveMsg?
    ensures r.status == Running <==>
              (Ones(LocalBits(s)) == |LocalBits(s)| ==> Pieces.Reassemble(s.chunks, s.fileSize).Some?)
    ensures r.status == Running ==>
              |r.out| >= |sent| + |order| && EndsWith(r.out, Broadcast(order, HaveMsg(i)))
    ensures r.status == Crashed ==> r.out == sent && r.s == s
  {
    match Complete(s)
    case None => Step(s, sent, Crashed)
    case Some(done) =>
      var have := Broadcast(order, HaveMsg(i));
      BroadcastAt(order, HaveMsg(i));
      var out := sent + done.out + have;
      assert EndsWith(out, have) by { assert out[|out| - |have|..] == have; }
      assert out[..|sent|] == sent;
      Step(done.s, out, Running)
  }

  /**
   The follow-up runs to its end exactly when the sender is a known peer,
   the request scan is skipped (choked) or reads only entries that exist,
   and a full bitfield can be reassembled.
   */
  lemma AfterStoreRuns(s: State, c: Int32, i: Int32, measured: real, pick: nat, order: seq<Int32>)
    requires Ready(s) && c in s.conns && Enumerates(order, s.conns.Keys)
    ensures AfterStore(s, c, i, measured, pick, order).status == Running <==>
              && s.conns[c].id in s.peers
              && (s.conns[c].choked || Safe(LocalBits(s), s.peers[s.conns[c].id].bitfield))
              && (Ones(LocalBits(s)) == |LocalBits(s)| ==> Pieces.Reassemble(s.chunks, s.fileSize).Some?)
  {
  }

  /**
   Only the sender's connection changes, and only in its rate: -1 when the
   sender is known to hold the whole file, the measured rate otherwise. No
   other peer's record changes.
   */
  lemma AfterStoreRate(s: State, c: Int32, i: Int32, measured: real, pick: nat, order: seq<Int32>)
    requires Ready(s) && c in s.conns && Enumerates(order, s.conns.Keys)
    ensures var r := AfterStore(s, c, i, measured, pick, order);
            && (forall k | k in s.conns && k != c :: r.s.conns[k] == s.conns[k])
            && r.s.conns[c].(rate := s.conns[c].rate) == s.conns[c]
            && (forall k | k in s.peers && k != s.self :: r.s.peers[k] == s.peers[k])
    ensures var r := AfterStore(s, c, i, measured, pick, order);
            r.status == Running ==>
              && s.conns[c].id in s.peers
              && r.s.conns[c].rate == (if s.peers[s.conns[c].id].hasFile == HAS_FILE then -1.0 else measured)
  {
  }

  /**
   A choked connection gets no follow-up REQUEST; an unchoked one gets one,
   first in the output, exactly when the sender holds a piece we lack.
   */
  lemma AfterStoreRequests(s: State, c: Int32, i: Int32, measured: real, pick: nat, order: seq<Int32>)
    requires Ready(s) && c in s.conns && Enumerates(order, s.conns.Keys)
    ensures var r := AfterStore(s, c, i, measured, pick, order);
            s.conns[c].choked ==> forall o | o in r.out :: !(o.Send? && o.msg.RequestMsg?)
    ensures var r := AfterStore(s, c, i, measured, pick, order);
            r.status == Running && !s.conns[c].choked ==>
              ((exists j :: Wanted(LocalBits(s), s.peers[s.conns[c].id].bitfield, j))
                 <==> |r.out| > 0 && r.out[0].Send? && r.out[0].msg.RequestMsg?)
  {
  }

  /** The follow-up of a stored piece keeps the state invariant and never sends EXIT. */
  lemma AfterStoreKeeps(s: State, c: Int32, i: Int32, measured: real, pick: nat, order: seq<Int32>)
    requires Ready(s) && c in s.conns && Enumerates(order, s.conns.Keys)
    ensures Valid(s) ==> Valid(AfterStore(s, c, i, measured, pick, order).s)
    ensures NoExit(AfterStore(s, c, i, measured, pick, order).out)
  {
  }

  /**
   Whether PIECE(i, data) runs to its end: i is a slot of the store and of
   the local bitfield, the sender is a known peer, the follow-up scan is
   skipped (the connection is choked) or finds every remote entry it reads,
   and a completion check that finds the bitfield full can reassemble the
   file. The scan and the check see the local bitfield with bit i set (and
   so does the scan when the sender's id is the local one).
   */
  predicate PieceRuns(s: State, c: Int32, i: int, data: seq<Byte>)
    requires Ready(s) && c in s.conns
  {
    && 0 <= i < |s.chunks| && i < |LocalBits(s)|
    && s.conns[c].id in s.peers
    && var local := LocalBits(s)[i := HAS_FILE];
       var remote := if s.conns[c].id == s.self then Some(local) else s.peers[s.conns[c].id].bitfield;
       && (s.conns[c].choked || Safe(local, remote))
       && (Ones(local) == |local| ==> Pieces.Reassemble(s.chunks[i := Some(data)], s.fileSize).Some?)
  }

  /** PIECE: the index is the payload's first four bytes, the data the rest. */
  function OnPiece(s: State, c: Int32, payload: JavaArray<Byte>, measured: real, pick: nat, order: seq<Int32>): (r: Step)
    requires Ready(s) && c in s.conns && Enumerates(order, s.conns.Keys)
    ensures SameShape(s, r.s) && Ready(r.s)
    ensures r.status != Exited
    ensures r.status == Running <==> |payload| >= INT_SIZE && PieceRuns(s, c, IntAt(payload, 0), payload[INT_SIZE..])
    ensures |payload| < INT_SIZE ==> r == Step(s, [], Crashed)
    ensures r.status == Running ==>
              |payload| >= INT_SIZE &&
              var i := IntAt(payload, 0);
              && 0 <= i < |s.chunks| && i < |LocalBits(s)|
              && r.s.chunks == s.chunks[i := Some(payload[INT_SIZE..])]
              && LocalBits(r.s) == LocalBits(s)[i := HAS_FILE]
              && Local(r.s).chunkCount == Local(s).chunkCount + 1
              && EndsWith(r.out, Broadcast(order, HaveMsg(i)))
              && (forall k | k in s.conns :: Send(k, HaveMsg(i)) in r.out)
    ensures Valid(s) ==> Valid(r.s)
    ensures NoExit(r.out)
  {
    if |payload| < INT_SIZE then Step(s, [], Crashed)
    else
      var r := PieceData(s, c, IntAt(payload, 0), payload[INT_SIZE..], measured, pick, order);
      BroadcastLast(r.out, order, s.conns.Keys, HaveMsg(IntAt(payload, 0)));
      r
  }

  /**
   PIECE(i, data) once the index is read: store the piece, then the
   follow-up of AfterStore. It runs to its end exactly when PieceRuns holds;
   the data is then in slot i, bit i is set, the chunk count is one higher
   and every connection is sent HAVE(i), last.
   */
  function PieceData(s: State, c: Int32, i: Int32, data: seq<Byte>, measured: real, pick: nat, order: seq<Int32>): (r: Step)
    requires Ready(s) && c in s.conns && Enumerates(order, s.conns.Keys)
    ensures SameShape(s, r.s) && Ready(r.s)
    ensures r.status != Exited
    ensures r.status == Running <==> PieceRuns(s, c, i, data)
    ensures !(0 <= i < |s.chunks| && i < |LocalBits(s)|) ==>
              r.status == Crashed && r.out == [] && r.s.conns == s.conns && r.s.peers == s.peers
    ensures r.status == Running ==>
              && 0 <= i < |s.chunks| && i < |LocalBits(s)|
              && r.s.chunks == s.chunks[i := Some(data)]
              && LocalBits(r.s) == LocalBits(s)[i := HAS_FILE]
              && Local(r.s).chunkCount == Local(s).chunkCount + 1
              && EndsWith(r.out, Broadcast(order, HaveMsg(i)))
    ensures Valid(s) ==> Valid(r.s)
    ensures NoExit(r.out)
  {
    match Store(s, i, data)
    case None =>
      if 0 <= i < |s.chunks| then Step(s.(chunks := s.chunks[i := Some(data)]), [], Crashed)
      else Step(s, [], Crashed)
    case Some(s1) =>
      AfterStoreKeeps(s1, c, i, measured, pick, order);
      AfterStoreRuns(s1, c, i, measured, pick, order);
      StoreSeenBy(s, c, i, data, s1);
      AfterStore(s1, c, i, measured, pick, order)
  }

  /** What the follow-up of PIECE sees after the store is what PieceRuns speaks of. */
  lemma StoreSeenBy(s: State, c: Int32, i: Int32, data: seq<Byte>, s1: State)
    requires Ready(s) && c in s.conns && Store(s, i, data) == Some(s1)
    ensures Ready(s1) && c in s1.conns && s1.conns[c] == s.conns[c]
    ensures s1.conns[c].id in s1.peers <==> s.conns[c].id in s.peers
    ensures s.conns[c].id in s.peers ==>
              (PieceRuns(s, c, i, data) <==>
                 && (s1.conns[c].choked || Safe(LocalBits(s1), s1.peers[s1.conns[c].id].bitfield))
                 && (Ones(LocalBits(s1)) == |LocalBits(s1)| ==> Pieces.Reassemble(s1.chunks, s1.fileSize).Some?))
  {
    var id := s.conns[c].id;
    if id in s.peers && id == s.self {
      assert s1.peers[id].bitfield == Some(LocalBits(s1));
    }
  }

  /** INTERESTED: the connection is marked interested. */
  function OnInterested(s: State, c: Int32): (r: Step)
    requires c in s.conns
    ensures r.status == Running && r.out == []
    ensures r.s.(conns := s.conns) == s && r.s.conns.Keys == s.conns.Keys
    ensures r.s.conns[c].interested && r.s.conns[c].(interested := s.conns[c].interested) == s.conns[c]
    ensures forall k | k in s.conns && k != c :: r.s.conns[k] == s.conns[k]
    ensures Valid(s) ==> Valid(r.s)
    ensures NoExit(r.out)
  {
    Step(SetConn(s, c, s.conns[c].(interested := true)), [], Running)
  }

  /**
   NOT_INTERESTED: the connection is marked not interested and, if it was
   unchoked, choked at once with a CHOKE sent.
   */
  function OnNotInterested(s: State, c: Int32): (r: Step)
    requires c in s.conns
    ensures r.status == Running
    ensures r.s.(conns := s.conns) == s && r.s.conns.Keys == s.conns.Keys
    ensures !r.s.conns[c].interested && r.s.conns[c].choked
    ensures r.s.conns[c].(interested := s.conns[c].interested, choked := s.conns[c].choked) == s.conns[c]
    ensures forall k | k in s.conns && k != c :: r.s.conns[k] == s.conns[k]
    ensures r.out == (if s.conns[c].choked then [] else [Send(c, Signal(Choke))])
    ensures Valid(s) ==> Valid(r.s)
    ensures NoExit(r.out)
  {
    var s1 := SetConn(s, c, s.conns[c].(interested := false));
    if s.conns[c].choked then Step(s1, [], Running)
    else Step(SetConn(s1, c, s1.conns[c].(choked := true)), [Send(c, Signal(Choke))], Running)
  }

  /** CHOKE: the connection is marked choked. */
  function OnChoke(s: State, c: Int32): (r: Step)
    requires c in s.conns
    ensures r.status == Running && r.out == []
    ensures r.s.(conns := s.conns) == s && r.s.conns.Keys == s.conns.Keys
    ensures r.s.conns[c].choked && r.s.conns[c].(choked := s.conns[c].choked) == s.conns[c]
    ensures forall k | k in s.conns && k != c :: r.s.conns[k] == s.conns[k]
    ensures Valid(s) ==> Valid(r.s)
    ensures NoExit(r.out)
  {
    Step(SetConn(s, c, s.conns[c].(choked := true)), [], Running)
  }

  /** UNCHOKE: the connection is marked unchoked, then a REQUEST follows as after a PIECE. */
  function OnUnchoke(s: State, c: Int32, pick: nat): (r: Step)
    requires Ready(s) && c in s.conns
    ensures r.s.(conns := s.conns) == s && r.s.conns.Keys == s.conns.Keys
    ensures !r.s.conns[c].choked && r.s.conns[c].(choked := s.conns[c].choked) == s.conns[c]
    ensures forall k | k in s.conns && k != c :: r.s.conns[k] == s.conns[k]
    ensures r.status != Exited
    ensures r.status == Running <==>
              s.conns[c].id in s.peers && Safe(LocalBits(s), s.peers[s.conns[c].id].bitfield)
    ensures r.status == Running ==>
              && |r.out| <= 1
              && (|r.out| == 1 <==> exists j :: Wanted(LocalBits(s), s.peers[s.conns[c].id].bitfield, j))
    ensures r.status == Running && |r.out| == 1 ==>
              && r.out[0].Send? && r.out[0].to == c && r.out[0].msg.RequestMsg?
              && Wanted(LocalBits(s), s.peers[s.conns[c].id].bitfield, r.out[0].msg.index)
    ensures r.status == Crashed ==> r.out == []
    ensures Valid(s) ==> Valid(r.s)
    ensures NoExit(r.out)
  {
    var s1 := SetConn(s, c, s.conns[c].(choked := false));
    var id := s.conns[c].id;
    if id !in s1.peers then Step(s1, [], Crashed)
    else
      match Follow(c, LocalBits(s1), s1.peers[id].bitfield, pick)
      case None => Step(s1, [], Crashed)
      case Some(out) => Step(s1, out, Running)
  }

  /**
   BITFIELD: the sender's bitfield is replaced by the decoded ints; the sender
   holds the file (and the counter is bumped) iff its count of ones equals
   the local bitfield length, otherwise its hasFile becomes 0; then tell the
   sender whether we are interested.
   */
  function OnBitfield(s: State, c: Int32, payload: JavaArray<Byte>): (r: Step)
    requires Ready(s) && c in s.conns
    ensures SameShape(s, r.s) && Ready(r.s) && r.s.chunks == s.chunks && r.s.conns == s.conns
    ensures r.status != Exited
    ensures r.status == Running <==>
              s.conns[c].id in s.peers &&
              var bits := DecodeInts(payload);
              Decide(if s.conns[c].id == s.self then bits else LocalBits(s), Some(bits)).Some?
    ensures s.conns[c].id != s.self ==> LocalBits(r.s) == LocalBits(s)
    ensures r.status == Running ==>
              var id := s.conns[c].id;
              && id in s.peers
              && r.s.peers[id].bitfield == Some(DecodeInts(payload))
              && r.s.peers[id].chunkCount == s.peers[id].chunkCount
              && (forall k | k in s.peers && k != id :: r.s.peers[k] == s.peers[k])
              && var full := Ones(DecodeInts(payload)) == |LocalBits(r.s)|;
                 && r.s.having == s.having + (if full then 1 else 0)
                 && r.s.peers[id].hasFile == (if full then HAS_FILE else NO_FILE)
    ensures Valid(s) ==> Valid(r.s)
    ensures NoExit(r.out)
  {
    var bits := DecodeInts(payload);
    var id := s.conns[c].id;
    if id !in s.peers then Step(s, [], Crashed)
    else
      var s1 := SetPeer(s, id, s.peers[id].(bitfield := Some(bits)));
      var local := LocalBits(s1);
      var full := Ones(bits) == |local|;
      var s2 := SetPeer(s1, id, s1.peers[id].(hasFile := if full then HAS_FILE else NO_FILE));
      assert s2.conns == s.conns && s2.chunks == s.chunks && LocalBits(s2) == local;
      Answer(if full then Bump(s2) else s2, c, Decide(local, Some(bits)))
  }

  /**
   A BITFIELD that is handled to its end is answered with exactly one
   message to the sender: INTERESTED when it holds a piece we lack,
   NOT_INTERESTED otherwise.
   */
  lemma BitfieldReply(s: State, c: Int32, payload: JavaArray<Byte>)
    requires Ready(s) && c in s.conns
    ensures var r := OnBitfield(s, c, payload);
            r.status == Running ==>
              r.out == [Send(c, Signal(if exists j :: Wanted(LocalBits(r.s), Some(DecodeInts(payload)), j)
                                      then Interested else NotInterested))]
  {
  }

  /**
   `handleReceivedMessage`: one received frame of the given type. EXIT stops
   the process; DONE and UNKNOWN are ignored.
   */
  function Dispatch(s: State, c: Int32, kind: MsgType, payload: JavaArray<Byte>,
                    measured: real, pick: nat, order: seq<Int32>): (r: Step)
    requires Ready(s) && c in s.conns && Enumerates(order, s.conns.Keys)
    ensures SameShape(s, r.s) && Ready(r.s)
    ensures r.status == Exited <==> kind == Exit
    ensures kind in {Exit, Done, Unknown} ==> r.s == s && r.out == []
    ensures Valid(s) ==> Valid(r.s)
    ensures NoExit(r.out)
  {
    match kind
    case Request => OnRequest(s, c, payload)
    case Have => OnHave(s, c, payload)
    case Piece => OnPiece(s, c, payload, measured, pick, order)
    case Interested => OnInterested(s, c)
    case NotInterested => OnNotInterested(s, c)
    case Choke => OnChoke(s, c)
    case Unchoke => OnUnchoke(s, c, pick)
    case Bitfield => OnBitfield(s, c, payload)
    case Exit => Step(s, [], Exited)
    case Done => Step(s, [], Running)
    case Unknown => Step(s, [], Running)
  }
}

=== FILE: handshake.dfy ===
/**
 Opening a connection. The dialling side (Sender) sends its handshake and
 reads the answer with `setConnectionAndReadHandshake`; the listening side
 (Receiver) reads the caller's handshake and answers with
 `acceptConnectionAndReadHandshake`. A connection that is accepted is
 stored in the connection map by `setHandshakeAndConnection`, which also
 starts the Message thread that serves it (Session.Run).
 */
module Handshakes {
  import opened JavaTypes
  import opened Wire
  import opened Swarm

  /**
   `setHandshakeAndConnection`: a fresh record for peer `id` is put under
   `key`, replacing any record stored there before.
   */
  function Register(s: State, key: Int32, id: Int32): (t: State)
    ensures t.conns.Keys == s.conns.Keys + {key}
    ensures t.conns[key].id == id && t.conns[key].choked
    ensures !t.conns[key].interested && !t.conns[key].optimistic && t.conns[key].rate == 0.0
    ensures forall k | k in s.conns && k != key :: t.conns[k] == s.conns[k]
    ensures t.(conns := s.conns) == s
  {
    s.(conns := s.conns[key := NewConnection(id)])
  }

  /**
   The dialling side, towards the peer it expects to be `expected`: our
   handshake goes out, then 32 bytes are read. Fewer bytes raise an
   IOException that is swallowed: nothing is registered and no error
   surfaces. An announced id other than the expected one closes the socket;
   the expected id registers the connection under it.
   */
  function Connect(s: State, expected: Int32, incoming: seq<Byte>): (r: Step)
    ensures r.status == Running
    ensures |r.out| > 0 && r.out[0] == Send(expected, Hello(s.self))
    ensures HandshakeId(incoming).None? ==> r.s == s && r.out == [Send(expected, Hello(s.self))]
    ensures HandshakeId(incoming).Some? && HandshakeId(incoming).value != expected ==>
              r.s == s && r.out == [Send(expected, Hello(s.self)), Close(expected)]
    ensures HandshakeId(incoming) == Some(expected) ==>
              r.s == Register(s, expected, expected) && r.out == [Send(expected, Hello(s.self))]
  {
    var hello := Send(expected, Hello(s.self));
    match HandshakeId(incoming)
    case None => Step(s, [hello], Running)
    case Some(id) =>
      if id != expected then Step(s, [hello, Close(expected)], Running)
      else Step(Register(s, expected, id), [hello], Running)
  }

  /**
   The listening side: 32 bytes are read first (fewer end the accepting
   thread with an exception), the connection is registered under the
   announced id, whatever it is, and our handshake is sent back.
   */
  function Accept(s: State, incoming: seq<Byte>): (r: Step)
    ensures r.status == Crashed <==> |incoming| < HANDSHAKE_SIZE
    ensures r.status != Exited
    ensures r.status == Crashed ==> r.s == s && r.out == []
    ensures r.status == Running ==>
              var id := IntAt(incoming, ID_OFFSET);
              r.s == Register(s, id, id) && r.out == [Send(id, Hello(s.self))]
  {
    match HandshakeId(incoming)
    case None => Step(s, [], Crashed)
    case Some(id) => Step(Register(s, id, id), [Send(id, Hello(s.self))], Running)
  }

  /** Registering a peer other than the local one under its own id keeps the state invariant. */
  lemma RegisterKeepsValid(s: State, id: Int32)
    requires Valid(s) && id != s.self
    ensures Valid(Register(s, id, id))
  {
  }

  /**
   Both sides of one connection: peer A dials B, B reads A's handshake and
   answers with its own, A reads that answer. Afterwards B holds a
   connection for A and A one for B, each stored under the other's id.
   */
  lemma Exchange(a: State, b: State, restA: seq<Byte>, restB: seq<Byte>)
    ensures var dial := Connect(a, b.self, Encode(Hello(b.self)) + restB);
            var answer := Accept(b, Encode(Hello(a.self)) + restA);
            && answer.status == Running && answer.out == [Send(a.self, Hello(b.self))]
            && a.self in answer.s.conns && answer.s.conns[a.self].id == a.self
            && dial.out == [Send(b.self, Hello(a.self))]
            && b.self in dial.s.conns && dial.s.conns[b.self].id == b.self
  {
    HandshakeRoundTrip(a.self, restA);
    HandshakeRoundTrip(b.self, restB);
    IntBytesOfRead(Handshake(a.self) + restA, ID_OFFSET);
  }

  /** A reply from any peer but the expected one closes the socket and registers nothing. */
  lemma WrongPeerRejected(s: State, expected: Int32, other: Int32, rest: seq<Byte>)
    requires other != expected
    ensures Connect(s, expected, Encode(Hello(other)) + rest).s == s
    ensures Close(expected) in Connect(s, expected, Encode(Hello(other)) + rest).out
  {
    HandshakeRoundTrip(other, rest);
  }
}

=== FILE: interest.dfy ===
/**
 The two bitfield scans of MessageHandler: the interest decision of
 `compareBitfieldAndSendInterestMessage` and the request candidates of
 `updateBitfieldStatusAndSendRequest`. Both walk the local bitfield and look
 at the remote entry only where the local one is 0 (`&&` short-circuits), so a
 missing (`null`) or shorter remote bitfield throws only when such a position
 is reached.
 */
module Interest {
  import opened JavaTypes

  /** Entry b of the remote bitfield can be read. */
  predicate Readable(remote: Option<seq<Int32>>, b: int)
  {
    remote.Some? && 0 <= b < |remote.value|
  }

  /** Piece b is one we lack and the remote peer holds. */
  predicate Wanted(local: seq<Int32>, remote: Option<seq<Int32>>, b: int)
  {
    0 <= b < |local| && local[b] == 0 && Readable(remote, b) && remote.value[b] == 1
  }

  /** Every piece we lack has a remote entry to look at: neither scan can throw. */
  predicate Safe(local: seq<Int32>, remote: Option<seq<Int32>>)
  {
    forall b | 0 <= b < |local| && local[b] == 0 :: Readable(remote, b)
  }

  /**
   The interest loop from position b: Some(true) at the first wanted piece,
   Some(false) at the end, None when it must read a remote entry that is not
   there.
   */
  function InterestFrom(local: seq<Int32>, remote: Option<seq<Int32>>, b: nat): (r: Option<bool>)
    requires b <= |local|
    ensures r == Some(true) <==> exists j | b <= j < |local| :: Wanted(local, remote, j)
    ensures r == Some(false) <==>
              (forall j | b <= j < |local| && local[j] == 0 :: Readable(remote, j))
              && !(exists j | b <= j < |local| :: Wanted(local, remote, j))
    decreases |local| - b
  {
    if b == |local| then Some(false)
    else if local[b] != 0 then InterestFrom(local, remote, b + 1)
    else if !Readable(remote, b) then
      None
    else if remote.value[b] == 1 then
      assert Wanted(local, remote, b);
      Some(true)
    else InterestFrom(local, remote, b + 1)
  }

  /** The interest decision for a whole bitfield. */
  function Decide(local: seq<Int32>, remote: Option<seq<Int32>>): (r: Option<bool>)
    ensures r == Some(true) <==> exists j :: Wanted(local, remote, j)
    ensures r == Some(false) <==> Safe(local, remote) && !(exists j :: Wanted(local, remote, j))
  {
    InterestFrom(local, remote, 0)
  }

  /**
   The candidate loop from position b: every wanted piece, in increasing order;
   None when it must read a remote entry that is not there.
   */
  function CandidatesFrom(local: seq<Int32>, remote: Option<seq<Int32>>, b: nat): (r: Option<seq<nat>>)
    requires b <= |local|
    ensures r.None? <==> exists j | b <= j < |local| :: local[j] == 0 && !Readable(remote, j)
    ensures r.Some? ==> forall x :: x in r.value <==> b <= x && Wanted(local, remote, x)
    ensures r.Some? ==> forall m, n | 0 <= m < n < |r.value| :: r.value[m] < r.value[n]
    decreases |local| - b
  {
    if b == |local| then Some([])
    else if local[b] != 0 then CandidatesFrom(local, remote, b + 1)
    else if !Readable(remote, b) then None
    else
      match CandidatesFrom(local, remote, b + 1)
      case None => None
      case Some(rest) =>
        assert forall k | 0 <= k < |rest| :: b < rest[k] by {
          forall k | 0 <= k < |rest| ensures b < rest[k] {
            assert rest[k] in rest;
          }
        }
        Some(if remote.value[b] == 1 then [b] + rest else rest)
  }

  /** The indices `updateBitfieldStatusAndSendRequest` chooses among. */
  function Candidates(local: seq<Int32>, remote: Option<seq<Int32>>): (r: Option<seq<nat>>)
    ensures r.None? <==> !Safe(local, remote)
    ensures r.Some? ==> forall x :: x in r.value <==> Wanted(local, remote, x)
    ensures r.Some? ==> forall x | x in r.value :: x < |local|
  {
    CandidatesFrom(local, remote, 0)
  }

  /**
   The two scans agree whenever the candidate scan completes: we announce
   interest exactly when there is a piece we could request.
   */
  lemma InterestMatchesCandidates(local: seq<Int32>, remote: Option<seq<Int32>>)
    requires Candidates(local, remote).Some?
    ensures Decide(local, remote) == Some(|Candidates(local, remote).value| > 0)
  {
    var cs := Candidates(local, remote).value;
    if |cs| > 0 {
      assert Wanted(local, remote, cs[0]);
    }
  }
}

=== FILE: java_types.dfy ===
/**
 Java value types the protocol engine works with, and the big-endian `int`
 codec of `java.nio.ByteBuffer` (`putInt` / `getInt`) that every message
 field is written and read with.
 */
module JavaTypes {

  /** A byte, held as its unsigned bit pattern. */
  type Byte = b: int | 0 <= b < 0x100

  /** A Java `int`. */
  type Int32 = x: int | -0x8000_0000 <= x < 0x8000_0000

  /** A Java array: its length is a non-negative `int`. */
  type JavaArray<T> = s: seq<T> | |s| <= 0x7FFF_FFFF witness []

  /** Java's `null` for the reference fields that start out unset. */
  datatype Option<+T> = None | Some(value: T)

  const TWO32: int := 0x1_0000_0000

  /** Size of a serialised `int` (AppConstants.INT_SIZE_BYTES). */
  const INT_SIZE: nat := 4

  /** The 32-bit pattern of a Java `int`. */
  function Unsigned(x: Int32): (u: nat)
    ensures u < TWO32
    ensures x >= 0 ==> u == x
    ensures x < 0 ==> u == x + TWO32
  {
    if x < 0 then x + TWO32 else x
  }

  /** The Java `int` with a given 32-bit pattern. */
  function Signed(u: nat): (x: Int32)
    requires u < TWO32
    ensures Unsigned(x) == u
  {
    if u < 0x8000_0000 then u else u - TWO32
  }

  /** `ByteBuffer.allocate(4).putInt(x).array()`: four bytes, most significant first. */
  function IntBytes(x: Int32): (r: seq<Byte>)
    ensures |r| == INT_SIZE
  {
    var u := Unsigned(x);
    var v := u / 0x100;
    var w := v / 0x100;
    [w / 0x100, w % 0x100, v % 0x100, u % 0x100]
  }

  /** `ByteBuffer.wrap(b, off, 4).getInt()`: the `int` stored big-endian at `off`. */
  function IntAt(b: seq<Byte>, off: nat): Int32
    requires off + INT_SIZE <= |b|
  {
    Signed(((b[off] as int * 0x100 + b[off + 1]) * 0x100 + b[off + 2]) * 0x100 + b[off + 3])
  }

  lemma DivMod256(a: int, r: int)
    requires 0 <= r < 0x100
    ensures (a * 0x100 + r) / 0x100 == a
    ensures (a * 0x100 + r) % 0x100 == r
  {
  }

  /** Reading back what `putInt` wrote gives the original `int`. */
  lemma IntRoundTrip(x: Int32)
    ensures IntAt(IntBytes(x), 0) == x
  {
    var u := Unsigned(x);
    var v := u / 0x100;
    var w := v / 0x100;
    assert u == v * 0x100 + u % 0x100;
    assert v == w * 0x100 + v % 0x100;
    assert w == (w / 0x100) * 0x100 + w % 0x100;
    var b := IntBytes(x);
    assert ((b[0] as int * 0x100 + b[1]) * 0x100 + b[2]) * 0x100 + b[3] == u;
  }

  /** Writing back what `getInt` read gives the original four bytes. */
  lemma IntBytesOfRead(b: seq<Byte>, off: nat)
    requires off + INT_SIZE <= |b|
    ensures IntBytes(IntAt(b, off)) == b[off..off + INT_SIZE]
  {
    var w := b[off] as int * 0x100 + b[off + 1];
    var v: int := w * 0x100 + b[off + 2];
    var u: int := v * 0x100 + b[off + 3];
    DivMod256(v, b[off + 3]);
    DivMod256(w, b[off + 2]);
    DivMod256(b[off], b[off + 1]);
    assert Unsigned(IntAt(b, off)) == u;
  }

  /** `putInt` is injective: distinct ints never share an encoding. */
  lemma IntBytesInjective(x: Int32, y: Int32)
    requires IntBytes(x) == IntBytes(y)
    ensures x == y
  {
    IntRoundTrip(x);
    IntRoundTrip(y);
  }

  /** `n` zero bytes: the unwritten tail of a freshly allocated Java array. */
  function Zeros(n: nat): (r: seq<Byte>)
    ensures |r| == n
    ensures forall j | 0 <= j < n :: r[j] == 0
  {
    seq(n, _ => 0)
  }

  /** The pieces laid end to end, as a sequence of `System.arraycopy` calls does. */
  function Concat(parts: seq<seq<Byte>>): seq<Byte>
  {
    if |parts| == 0 then [] else parts[0] + Concat(parts[1..])
  }

  lemma ConcatAppend(parts: seq<seq<Byte>>, last: seq<Byte>)
    ensures Concat(parts + [last]) == Concat(parts) + last
  {
    if |parts| == 0 {
      assert parts + [last] == [last];
    } else {
      assert (parts + [last])[1..] == parts[1..] + [last];
      ConcatAppend(parts[1..], last);
    }
  }

  /**
   The number of entries equal to 1, as
   `Arrays.stream(bitfield).filter(b -> b == 1).count()` computes it.
   */
  function Ones(bits: seq<Int32>): (n: nat)
    ensures n <= |bits|
  {
    if |bits| == 0 then 0 else (if bits[0] == 1 then 1 else 0) + Ones(bits[1..])
  }

  /** The count of ones reaches the length exactly when every entry is 1. */
  lemma {:induction false} OnesFull(bits: seq<Int32>)
    ensures Ones(bits) == |bits| <==> forall j | 0 <= j < |bits| :: bits[j] == 1
  {
    if |bits| > 0 {
      OnesFull(bits[1..]);
      if Ones(bits) == |bits| {
        forall j | 0 <= j < |bits| ensures bits[j] == 1 {
          if j > 0 {
            assert bits[j] == bits[1..][j - 1];
          }
        }
      }
      if forall j | 0 <= j < |bits| :: bits[j] == 1 {
        assert forall j | 0 <= j < |bits[1..]| :: bits[1..][j] == 1 by {
          forall j | 0 <= j < |bits[1..]| ensures bits[1..][j] == 1 {
            assert bits[1..][j] == bits[j + 1];
          }
        }
      }
    }
  }

  /** Setting an entry to 1 adds one to the count when it was not 1, and nothing otherwise. */
  lemma {:induction false} OnesSet(bits: seq<Int32>, i: nat)
    requires i < |bits|
    ensures Ones(bits[i := 1]) == Ones(bits) + (if bits[i] == 1 then 0 else 1)
  {
    if i == 0 {
      assert bits[i := 1][1..] == bits[1..];
    } else {
      assert bits[i := 1][1..] == bits[1..][i - 1 := 1];
      OnesSet(bits[1..], i - 1);
    }
  }
}

=== FILE: message_types.dfy ===
/**
 The message type enumeration and its one-byte wire code. The codes are the
 ASCII digits '0'..'9' in declaration order; every other character reads as
 Unknown, and Unknown itself is written as the byte 0.
 */
module MessageTypes {
  import opened JavaTypes

  datatype MsgType =
    | Exit | Choke | Unchoke | Interested | NotInterested
    | Have | Bitfield | Request | Piece | Done
    | Unknown

  /** Position of a type in the enum declaration. */
  function Ordinal(t: MsgType): (n: nat)
    ensures t != Unknown <==> n < 10
  {
    match t
    case Exit => 0
    case Choke => 1
    case Unchoke => 2
    case Interested => 3
    case NotInterested => 4
    case Have => 5
    case Bitfield => 6
    case Request => 7
    case Piece => 8
    case Done => 9
    case Unknown => 10
  }

  /** `getMessageTypeFromByte`: the switch on the received character. */
  function FromChar(ch: char): MsgType
  {
    match ch
    case '0' => Exit
    case '1' => Choke
    case '2' => Unchoke
    case '3' => Interested
    case '4' => NotInterested
    case '5' => Have
    case '6' => Bitfield
    case '7' => Request
    case '8' => Piece
    case '9' => Done
    case _ => Unknown
  }

  /** `getByteFromMessageType`: the code byte written after the length prefix. */
  function Code(t: MsgType): Byte
  {
    match t
    case Exit => '0' as int
    case Choke => '1' as int
    case Unchoke => '2' as int
    case Interested => '3' as int
    case NotInterested => '4' as int
    case Have => '5' as int
    case Bitfield => '6' as int
    case Request => '7' as int
    case Piece => '8' as int
    case Done => '9' as int
    case Unknown => 0
  }

  /**
   The Java cast `(char) inBuff[0]`: the byte is signed, so the cast sign-extends
   and bytes 0x80..0xFF become the characters U+FF80..U+FFFF.
   */
  function CharOfByte(b: Byte): (ch: char)
    ensures b < 0x80 ==> ch as int == b
    ensures b >= 0x80 ==> ch as int == b + 0xFF00
  {
    if b < 0x80 then b as char else (b + 0xFF00) as char
  }

  /** The type of a received frame, read from its first byte. */
  function FromByte(b: Byte): MsgType
  {
    FromChar(CharOfByte(b))
  }

  /** Each known type is written as the ASCII digit of its declaration position. */
  lemma CodeIsDigit(t: MsgType)
    requires t != Unknown
    ensures Code(t) == '0' as int + Ordinal(t)
    ensures 0x30 <= Code(t) <= 0x39
  {
  }

  /** Unknown is written as the byte 0. */
  lemma UnknownCode()
    ensures Code(Unknown) == 0
  {
  }

  /** The digit d decodes to the type declared at position d. */
  lemma DigitDecodes(d: nat)
    requires d < 10
    ensures Ordinal(FromChar(('0' as int + d) as char)) == d
  {
  }

  /** Every character other than '0'..'9' decodes to Unknown. */
  lemma NonDigitIsUnknown(ch: char)
    requires ch < '0' || '9' < ch
    ensures FromChar(ch) == Unknown
  {
  }

  /** Round trip through the code byte, for every type including Unknown. */
  lemma CodeRoundTrip(t: MsgType)
    ensures FromByte(Code(t)) == t
  {
  }

  /** Distinct known types get distinct codes. */
  lemma CodeInjective(t: MsgType, u: MsgType)
    requires t != Unknown && u != Unknown
    requires Code(t) == Code(u)
    ensures t == u
  {
    CodeRoundTrip(t);
    CodeRoundTrip(u);
  }

  /** A byte decodes to a known type exactly when it is one of the ten codes. */
  lemma {:induction false} FromByteKnown(b: Byte)
    ensures FromByte(b) != Unknown <==> 0x30 <= b <= 0x39
    ensures FromByte(b) != Unknown ==> Code(FromByte(b)) == b
  {
    if 0x30 <= b <= 0x39 {
      DigitDecodes(b - 0x30);
    }
  }
}

=== FILE: optimistic.dfy ===
/**
 One pass of the OptimisticUnchokeHandler loop: while not every peer holds
 the file, one interested connection drawn at random is unchoked (the
 UNCHOKE is sent whether or not it was choked) and marked optimistically
 unchoked for one interval, after which the mark is cleared. When every
 peer holds the file the loop ends and the process exits.
 */
module Optimistic {
  import opened JavaTypes
  import opened MessageTypes
  import opened Wire
  import opened Swarm
  import Neighbours

  /** A pass's outcome: the step and the connection it chose, if any. */
  datatype Pass = Pass(step: Step, chosen: Option<Int32>)

  /**
   The first half of a pass, up to the sleep. `order` is the map's iteration
   order and `pick` the random index into the interested connections.
   */
  function Start(s: State, order: seq<Int32>, pick: nat): (r: Pass)
    requires Enumerates(order, s.conns.Keys)
    requires |Neighbours.Interested(s, order, false)| > 0 ==> pick < |Neighbours.Interested(s, order, false)|
    ensures r.step.status == Exited <==> s.having >= |s.peers|
    ensures r.step.status != Crashed
    ensures r.step.s.conns.Keys == s.conns.Keys
    ensures r.step.status == Exited ==> r.step.s == s && r.step.out == [] && r.chosen.None?
    ensures r.step.status == Running && r.chosen.None? ==> r.step.s == s && r.step.out == []
    ensures r.step.status == Running ==>
              (r.chosen.None? <==> forall c | c in s.conns :: !s.conns[c].interested)
    ensures r.chosen.Some? ==>
              var c := r.chosen.value;
              && c in s.conns && s.conns[c].interested
              && r.step.s.conns.Keys == s.conns.Keys
              && r.step.s.conns[c] == s.conns[c].(choked := false, optimistic := true)
              && (forall k | k in s.conns && k != c :: r.step.s.conns[k] == s.conns[k])
              && r.step.s.(conns := s.conns) == s
              && r.step.out == [Send(c, Signal(Unchoke))]
  {
    if s.having >= |s.peers| then Pass(Step(s, [], Exited), None)
    else
      var ids := Neighbours.Interested(s, order, false);
      if |ids| == 0 then Pass(Step(s, [], Running), None)
      else
        var c := ids[pick];
        var a := Neighbours.SetChoke(s, c, false);
        var t := SetConn(a.s, c, a.s.conns[c].(optimistic := true));
        Pass(Step(t, a.out, Running), Some(c))
  }

  /** The second half, after the interval: the chosen connection loses its optimistic mark. */
  function End(s: State, c: Int32): (t: State)
    requires c in s.conns
    ensures t.conns.Keys == s.conns.Keys && !t.conns[c].optimistic
    ensures t.conns[c].(optimistic := s.conns[c].optimistic) == s.conns[c]
    ensures forall k | k in s.conns && k != c :: t.conns[k] == s.conns[k]
    ensures t.(conns := s.conns) == s
  {
    SetConn(s, c, s.conns[c].(optimistic := false))
  }

  /**
   A whole pass on a connection that was not marked optimistic: the mark
   comes and goes again, and all that is left is that the chosen connection
   is unchoked.
   */
  lemma PassLeavesUnchoked(s: State, order: seq<Int32>, pick: nat)
    requires Enumerates(order, s.conns.Keys)
    requires |Neighbours.Interested(s, order, false)| > 0 ==> pick < |Neighbours.Interested(s, order, false)|
    requires Start(s, order, pick).chosen.Some?
    requires !s.conns[Start(s, order, pick).chosen.value].optimistic
    ensures var r := Start(s, order, pick);
            var c := r.chosen.value;
            End(r.step.s, c) == s.(conns := s.conns[c := s.conns[c].(choked := false)])
  {
    var r := Start(s, order, pick);
    ClearMark(s, r.step.s, r.chosen.value);
  }

  lemma ClearMark(s: State, t: State, c: Int32)
    requires c in s.conns && !s.conns[c].optimistic
    requires t.conns.Keys == s.conns.Keys
    requires t.conns[c] == s.conns[c].(choked := false, optimistic := true)
    requires forall k | k in s.conns && k != c :: t.conns[k] == s.conns[k]
    requires t.(conns := s.conns) == s
    ensures End(t, c) == s.(conns := s.conns[c := s.conns[c].(choked := false)])
  {
    var e := End(t, c);
    var want := s.conns[c := s.conns[c].(choked := false)];
    assert e.conns == want;
  }

  /**
   While its interval lasts, a pass of the choke/unchoke scheduler never
   chokes the optimistically unchoked connection.
   */
  lemma ChokeTickSparesOptimistic(s: State, order: seq<Int32>, pick: nat, picks: seq<nat>)
    requires s.self in s.peers && Enumerates(order, s.conns.Keys)
    requires |Neighbours.Interested(s, order, false)| > 0 ==> pick < |Neighbours.Interested(s, order, false)|
    requires Start(s, order, pick).chosen.Some?
    requires var t := Start(s, order, pick).step.s;
             t.preferred >= 0 && Local(t).hasFile == HAS_FILE ==>
               |Neighbours.Interested(t, order, false)| > t.preferred ==>
                 Neighbours.PicksFit(picks, |Neighbours.Interested(t, order, false)|, t.preferred)
    ensures var r := Start(s, order, pick);
            var tick := Neighbours.ChokeTick(r.step.s, order, picks);
            !tick.step.s.conns[r.chosen.value].choked
  {
  }
}

=== FILE: pieces.dfy ===
/**
 Piece arithmetic of PeerHandler: how many pieces a file of S bytes has at
 piece size P, how `chopFileIntoPieces` slices the file, and how
 `updatePeerFileStatus` lays the pieces back into an S-byte buffer.
 */
module Pieces {
  import opened JavaTypes

  function Min(a: int, b: int): int
  {
    if a <= b then a else b
  }

  /** `getNumberOfFileChunks`: `(fileSize + pieceSize - 1) / pieceSize`. */
  function PieceCount(size: nat, piece: nat): nat
    requires piece > 0
  {
    (size + piece - 1) / piece
  }

  lemma MulMono(a: nat, b: nat, p: nat)
    requires a <= b
    ensures a * p <= b * p
  {
  }

  /** The piece count is the ceiling of S / P: the least C with C * P >= S. */
  lemma PieceCountIsCeiling(size: nat, piece: nat)
    requires piece > 0
    ensures PieceCount(size, piece) * piece >= size
    ensures PieceCount(size, piece) > 0 ==> (PieceCount(size, piece) - 1) * piece < size
  {
    var c := PieceCount(size, piece);
    var r := (size + piece - 1) % piece;
    assert size + piece - 1 == c * piece + r;
  }

  /** No count smaller than the piece count covers the file. */
  lemma PieceCountLeast(size: nat, piece: nat, c: nat)
    requires piece > 0
    requires c * piece >= size
    ensures PieceCount(size, piece) <= c
  {
    PieceCountIsCeiling(size, piece);
    if PieceCount(size, piece) > c {
      MulMono(c, PieceCount(size, piece) - 1, piece);
    }
  }

  /**
   A size that is an exact multiple n * P gives n pieces; n * P + r with
   0 < r < P gives n + 1, the last one short.
   */
  lemma PieceCountBoundary(n: nat, r: nat, piece: nat)
    requires piece > 0 && r < piece
    ensures r == 0 ==> PieceCount(n * piece + r, piece) == n
    ensures r > 0 ==> PieceCount(n * piece + r, piece) == n + 1
  {
    var size := n * piece + r;
    PieceCountIsCeiling(size, piece);
    if r == 0 {
      PieceCountLeast(size, piece, n);
      if PieceCount(size, piece) < n {
        MulMono(PieceCount(size, piece), n - 1, piece);
      }
    } else {
      assert (n + 1) * piece == n * piece + piece;
      PieceCountLeast(size, piece, n + 1);
      if PieceCount(size, piece) <= n {
        MulMono(PieceCount(size, piece), n, piece);
      }
    }
  }

  /** A count whose pieces stop short of the end of the file is below the piece count. */
  lemma ShortOfEnd(size: nat, piece: nat, n: nat)
    requires piece > 0
    requires n * piece < size
    ensures n < PieceCount(size, piece)
  {
    PieceCountIsCeiling(size, piece);
    if n >= PieceCount(size, piece) {
      MulMono(PieceCount(size, piece), n, piece);
    }
  }

  /** Chunk k of the file: bytes [k * P, min((k + 1) * P, S)). */
  function ChunkAt(file: seq<Byte>, piece: nat, k: nat): (c: seq<Byte>)
    requires piece > 0
    requires k < PieceCount(|file|, piece)
    ensures k * piece < |file|
  {
    PieceCountIsCeiling(|file|, piece);
    MulMono(k, PieceCount(|file|, piece) - 1, piece);
    file[k * piece..Min((k + 1) * piece, |file|)]
  }

  /** All chunks of the file, in index order. */
  function Chunks(file: seq<Byte>, piece: nat): (cs: seq<seq<Byte>>)
    requires piece > 0
    ensures |cs| == PieceCount(|file|, piece)
    ensures forall k | 0 <= k < |cs| :: cs[k] == ChunkAt(file, piece, k)
  {
    seq(PieceCount(|file|, piece), k requires 0 <= k < PieceCount(|file|, piece) => ChunkAt(file, piece, k))
  }

  /** Every chunk but the last is P bytes long; the last holds the remaining S - (C - 1) * P. */
  lemma ChunkSizes(file: seq<Byte>, piece: nat, k: nat)
    requires piece > 0
    requires k < PieceCount(|file|, piece)
    ensures k + 1 < PieceCount(|file|, piece) ==> |ChunkAt(file, piece, k)| == piece
    ensures k + 1 == PieceCount(|file|, piece) ==> |ChunkAt(file, piece, k)| == |file| - k * piece
    ensures 0 < |ChunkAt(file, piece, k)| <= piece
  {
    PieceCountIsCeiling(|file|, piece);
    if k + 1 < PieceCount(|file|, piece) {
      MulMono(k + 1, PieceCount(|file|, piece) - 1, piece);
    }
  }

  /**
   The chopping loop of `chopFileIntoPieces` for an owner: `i` runs from 0 in
   steps of P while below S, each step stores the slice [i, min(i + P, S)) at
   the next index and increments the running chunk count, starting from
   `startCount`; `completed` records whether that count ever reached
   `bitfieldLength` (which makes the loop set hasFile).
   */
  method ChopLoop(file: seq<Byte>, piece: nat, startCount: int, bitfieldLength: int)
    returns (chunks: seq<seq<Byte>>, count: int, completed: bool)
    requires piece > 0
    ensures chunks == Chunks(file, piece)
    ensures count == startCount + PieceCount(|file|, piece)
    ensures completed <==> startCount < bitfieldLength <= count
  {
    var i := 0;
    var index := 0;
    chunks := [];
    count := startCount;
    completed := false;
    while i < |file|
      invariant i == index * piece
      invariant index <= PieceCount(|file|, piece)
      invariant i < |file| ==> index < PieceCount(|file|, piece)
      invariant |chunks| == index
      invariant forall k | 0 <= k < index :: chunks[k] == ChunkAt(file, piece, k)
      invariant count == startCount + index
      invariant completed <==> startCount < bitfieldLength <= count
    {
      var chunkEnd := Min(i + piece, |file|);
      assert file[i..chunkEnd] == ChunkAt(file, piece, index);
      chunks := chunks + [file[i..chunkEnd]];
      index := index + 1;
      i := i + piece;
      if i < |file| {
        ShortOfEnd(|file|, piece, index);
      }
      count := count + 1;
      if count == bitfieldLength {
        completed := true;
      }
    }
    if index < PieceCount(|file|, piece) {
      PieceCountLeast(|file|, piece, index);
    }
  }

  /** The bytes of the first k chunks put back together are the first min(k * P, S) bytes of the file. */
  lemma {:induction false} ConcatChunksPrefix(file: seq<Byte>, piece: nat, k: nat)
    requires piece > 0
    requires k <= PieceCount(|file|, piece)
    ensures k * piece <= |file| || k == PieceCount(|file|, piece)
    ensures Concat(Chunks(file, piece)[..k]) == file[..Min(k * piece, |file|)]
  {
    PieceCountIsCeiling(|file|, piece);
    if k == 0 {
      assert Chunks(file, piece)[..0] == [];
    } else {
      ConcatChunksPrefix(file, piece, k - 1);
      var cs := Chunks(file, piece);
      assert cs[..k] == cs[..k - 1] + [cs[k - 1]];
      ConcatAppend(cs[..k - 1], cs[k - 1]);
      var c := ChunkAt(file, piece, k - 1);
      assert (k - 1) * piece + piece == k * piece;
      assert file[..(k - 1) * piece] + c == file[..Min(k * piece, |file|)];
      if k < PieceCount(|file|, piece) {
        MulMono(k, PieceCount(|file|, piece) - 1, piece);
      }
    }
  }

  /** Laying all the chunks end to end gives back the file. */
  lemma ConcatChunks(file: seq<Byte>, piece: nat)
    requires piece > 0
    ensures Concat(Chunks(file, piece)) == file
  {
    var cs := Chunks(file, piece);
    ConcatChunksPrefix(file, piece, |cs|);
    assert cs[..|cs|] == cs;
    PieceCountIsCeiling(|file|, piece);
  }

  /** The piece store's slots laid end to end; None as soon as a slot is empty (`null`). */
  function Flatten(slots: seq<Option<seq<Byte>>>): (r: Option<seq<Byte>>)
    ensures r.Some? <==> forall j | 0 <= j < |slots| :: slots[j].Some?
  {
    if |slots| == 0 then Some([])
    else if slots[0].None? then None
    else match Flatten(slots[1..])
      case None => None
      case Some(tail) => Some(slots[0].value + tail)
  }

  /**
   The reassembly of `updatePeerFileStatus`: the chunks are copied in index
   order into a fresh buffer of `size` bytes. A missing chunk (null pointer)
   or more bytes than the buffer holds (index out of bounds) abort it: None.
   Bytes the chunks do not reach stay zero.
   */
  function Reassemble(slots: seq<Option<seq<Byte>>>, size: nat): (r: Option<seq<Byte>>)
    ensures r.Some? <==> Flatten(slots).Some? && |Flatten(slots).value| <= size
    ensures r.Some? ==> |r.value| == size
    ensures r.Some? ==> r.value[..|Flatten(slots).value|] == Flatten(slots).value
    ensures r.Some? ==> forall j | |Flatten(slots).value| <= j < size :: r.value[j] == 0
  {
    match Flatten(slots)
    case None => None
    case Some(flat) => if |flat| > size then None else Some(flat + Zeros(size - |flat|))
  }

  /** The piece store of an owner: every chunk present. */
  function Stored(cs: seq<seq<Byte>>): (slots: seq<Option<seq<Byte>>>)
    ensures |slots| == |cs|
    ensures forall j | 0 <= j < |cs| :: slots[j] == Some(cs[j])
  {
    seq(|cs|, j requires 0 <= j < |cs| => Some(cs[j]))
  }

  lemma {:induction false} FlattenStored(cs: seq<seq<Byte>>)
    ensures Flatten(Stored(cs)) == Some(Concat(cs))
  {
    if |cs| > 0 {
      assert Stored(cs)[1..] == Stored(cs[1..]);
      FlattenStored(cs[1..]);
    }
  }

  /**
   Chop/reassemble round trip: reassembling the chunks `chopFileIntoPieces`
   produced, into a buffer of the file's size, gives back the file exactly.
   */
  lemma ReassembleChopped(file: seq<Byte>, piece: nat)
    requires piece > 0
    ensures Reassemble(Stored(Chunks(file, piece)), |file|) == Some(file)
  {
    FlattenStored(Chunks(file, piece));
    ConcatChunks(file, piece);
    assert file + Zeros(0) == file;
  }
}

=== FILE: session.dfy ===
/**
 The thread that serves one connection (`Message.run`): it first sends the
 local bitfield, then reads and handles frames while fewer peers than the
 swarm size are known to hold the file; when that loop ends it sends EXIT
 to every connection if the local peer holds the file, and stops the
 process.
 */
module Session {
  import opened JavaTypes
  import opened MessageTypes
  import opened Wire
  import opened Swarm
  import Handlers

  /** What the clock and the random generator supply for one frame: the measured rate and a random draw. */
  datatype Draw = Draw(rate: real, pick: nat)

  /**
   After the loop: if the local peer holds the file, EXIT to every
   connection (`notifyAllConnectionsOfExit`, in the map's iteration order),
   then System.exit.
   */
  function Finish(s: State, order: seq<Int32>): (r: Step)
    requires s.self in s.peers && Enumerates(order, s.conns.Keys)
    ensures r.s == s && r.status == Exited
    ensures Local(s).hasFile == HAS_FILE ==>
              && (forall k :: Send(k, Signal(Exit)) in r.out <==> k in s.conns)
              && (forall o | o in r.out :: o.Send? && o.msg == Signal(Exit))
              && |r.out| == |order|
              && forall j, m | 0 <= j < m < |r.out| :: r.out[j] != r.out[m]
    ensures Local(s).hasFile != HAS_FILE ==> r.out == []
  {
    BroadcastReaches(order, s.conns.Keys, Signal(Exit));
    Step(s, if Local(s).hasFile == HAS_FILE then Broadcast(order, Signal(Exit)) else [], Exited)
  }

  /**
   The receive loop from frame number n on: test the counter, read a frame,
   handle it. A stream that ends or a frame that cannot be read ends the
   thread; so does a handler that throws.
   */
  function Loop(s: State, c: Int32, stream: seq<Byte>, order: seq<Int32>, draw: nat -> Draw, n: nat): (r: Step)
    requires Ready(s) && c in s.conns && Enumerates(order, s.conns.Keys)
    ensures SameShape(s, r.s) && Ready(r.s)
    ensures r.status != Running
    ensures s.having >= |s.peers| ==> r == Finish(s, order)
    ensures Valid(s) ==> Valid(r.s)
    ensures !NoExit(r.out) ==> r.status == Exited && Local(r.s).hasFile == HAS_FILE
    decreases |stream|
  {
    if s.having >= |s.peers| then Finish(s, order)
    else
      match ReadFrame(stream)
      case Broken(_) => Step(s, [], Crashed)
      case Received(kind, payload, rest) =>
        var t := Handlers.Dispatch(s, c, kind, payload, draw(n).rate, draw(n).pick, order);
        if t.status != Running then t
        else
          var u := Loop(t.s, c, rest, order, draw, n + 1);
          NoExitAppend(t.out, u.out);
          Step(u.s, t.out + u.out, u.status)
  }

  /**
   While fewer peers than the swarm size hold the file, the loop handles
   the frame it reads: whatever that handler sends goes out first, and a
   handler that throws or exits ends the loop with its own result. A
   stream that breaks before a whole frame ends the thread with nothing
   sent.
   */
  lemma LoopHandlesFrame(s: State, c: Int32, stream: seq<Byte>, order: seq<Int32>, draw: nat -> Draw, n: nat)
    requires Ready(s) && c in s.conns && Enumerates(order, s.conns.Keys) && s.having < |s.peers|
    ensures ReadFrame(stream).Broken? ==> Loop(s, c, stream, order, draw, n) == Step(s, [], Crashed)
    ensures ReadFrame(stream).Received? ==>
              var f := ReadFrame(stream);
              var t := Handlers.Dispatch(s, c, f.kind, f.payload, draw(n).rate, draw(n).pick, order);
              var r := Loop(s, c, stream, order, draw, n);
              && StartsWith(r.out, t.out)
              && (t.status != Running ==> r == t)
  {
    var r := Loop(s, c, stream, order, draw, n);
    match ReadFrame(stream)
    case Broken(_) =>
    case Received(kind, payload, rest) =>
      var t := Handlers.Dispatch(s, c, kind, payload, draw(n).rate, draw(n).pick, order);
      if t.status == Running {
        var u := Loop(t.s, c, rest, order, draw, n + 1);
        assert r.out == t.out + u.out;
        assert (t.out + u.out)[..|t.out|] == t.out;
      }
  }

  /**
   An EXIT frame stops the process at once: nothing is sent (in particular
   no EXIT to the other connections) and the state is left as it was.
   */
  lemma ExitFrameStops(s: State, c: Int32, rest: seq<Byte>, order: seq<Int32>, draw: nat -> Draw, n: nat)
    requires Ready(s) && c in s.conns && Enumerates(order, s.conns.Keys) && s.having < |s.peers|
    ensures Loop(s, c, Encode(Signal(Exit)) + rest, order, draw, n) == Step(s, [], Exited)
  {
    EncodeRoundTrip(Signal(Exit), rest);
  }

  lemma NoExitAppend(a: seq<Out>, b: seq<Out>)
    ensures NoExit(a) && NoExit(b) ==> NoExit(a + b)
  {
    if NoExit(a) && NoExit(b) {
      forall j | 0 <= j < |a + b| ensures !((a + b)[j].Send? && (a + b)[j].msg == Signal(Exit)) {
        if j >= |a| {
          assert (a + b)[j] == b[j - |a|];
        }
      }
    }
  }

  /** `Message.run` on a new connection: the local bitfield goes out first, then the loop. */
  function Run(s: State, c: Int32, stream: seq<Byte>, order: seq<Int32>, draw: nat -> Draw): (r: Step)
    requires Ready(s) && c in s.conns && Enumerates(order, s.conns.Keys)
    ensures |r.out| > 0 && r.out[0] == Send(c, BitfieldMsg(LocalBits(s)))
    ensures r.status != Running && SameShape(s, r.s) && Ready(r.s)
    ensures Valid(s) ==> Valid(r.s)
    ensures !NoExit(r.out) ==> r.status == Exited && Local(r.s).hasFile == HAS_FILE
  {
    var u := Loop(s, c, stream, order, draw, 0);
    NoExitAppend([Send(c, BitfieldMsg(LocalBits(s)))], u.out);
    Step(u.s, [Send(c, BitfieldMsg(LocalBits(s)))] + u.out, u.status)
  }
}

=== FILE: swarm.dfy ===
/**
 The state one peer process keeps (PeerConfiguration with its PeerData and
 PeerConnection records), the effects a step can have on the outside world,
 and the start-up of PeerHandler that fills the local bitfield and chunk
 store.
 */
module Swarm {
  import opened JavaTypes
  import Wire
  import MessageTypes
  import Pieces

  /** AppConstants.PEER_HAS_FILE, also HAS_BITFIELD. */
  const HAS_FILE: Int32 := 1
  /** AppConstants.PEER_HAS_NO_FILE. */
  const NO_FILE: Int32 := 0

  /** What is known about one peer of the swarm (PeerData). */
  datatype PeerData = PeerData(
    id: Int32,
    host: string,
    port: Int32,
    hasFile: Int32,
    chunkCount: int,
    bitfield: Option<JavaArray<Int32>>)

  /** The PeerData constructor: no chunks counted and no bitfield yet. */
  function NewPeerData(id: Int32, host: string, port: Int32, hasFile: Int32): (d: PeerData)
    ensures d.id == id && d.host == host && d.port == port && d.hasFile == hasFile
    ensures d.chunkCount == 0 && d.bitfield.None?
  {
    PeerData(id, host, port, hasFile, 0, None)
  }

  /** One open connection (PeerConnection); the socket is the map key it is stored under. */
  datatype Connection = Connection(
    id: Int32,
    interested: bool,
    choked: bool,
    optimistic: bool,
    rate: real)

  /** The PeerConnection constructor: choked, not interested, not optimistic, rate 0. */
  function NewConnection(id: Int32): (c: Connection)
    ensures c.id == id
    ensures c.choked && !c.interested && !c.optimistic && c.rate == 0.0
  {
    Connection(id, false, true, false, 0.0)
  }

  /**
   PeerConfiguration: the local id, the configured number of preferred
   neighbours and file size, every peer's data by id, the open connections by
   peer id, the chunk store (a `null` slot is None), and the count of peers
   known to hold the whole file.
   */
  datatype State = State(
    self: Int32,
    preferred: Int32,
    fileSize: nat,
    peers: map<Int32, PeerData>,
    conns: map<Int32, Connection>,
    chunks: JavaArray<Option<seq<Byte>>>,
    having: int)

  /** What a step does to the world besides changing the state. */
  datatype Out =
    | Send(to: Int32, msg: Wire.Msg)   // a message written to the connection with that peer
    | Close(to: Int32)                 // that connection's socket closed
    | WriteFile(data: seq<Byte>)       // the reassembled file written to disk

  /**
   How the thread running a step ends it: still running, ended by an
   exception it does not handle (the thread stops, what was changed before
   stays changed), or by System.exit (the whole process stops).
   */
  datatype Status = Running | Crashed | Exited

  datatype Step = Step(s: State, out: seq<Out>, status: Status)

  /** No step of this list sends EXIT. */
  predicate NoExit(out: seq<Out>)
  {
    forall j | 0 <= j < |out| :: !(out[j].Send? && out[j].msg == Wire.Signal(MessageTypes.Exit))
  }

  /** The local peer's record exists and has its bitfield, as start-up leaves it. */
  predicate Ready(s: State)
  {
    s.self in s.peers && s.peers[s.self].bitfield.Some?
  }

  function Local(s: State): PeerData
    requires s.self in s.peers
  {
    s.peers[s.self]
  }

  function LocalBits(s: State): JavaArray<Int32>
    requires Ready(s)
  {
    s.peers[s.self].bitfield.value
  }

  /**
   The invariant the handlers keep: one bit per chunk slot, a set bit has its
   chunk, every connection is stored under its own peer id, and the local
   peer has no connection to itself.
   */
  predicate Valid(s: State)
  {
    && Ready(s)
    && |LocalBits(s)| == |s.chunks|
    && (forall j | 0 <= j < |s.chunks| :: LocalBits(s)[j] == HAS_FILE ==> s.chunks[j].Some?)
    && (forall k | k in s.conns :: s.conns[k].id == k)
    && s.self !in s.conns
  }

  /** No id occurs twice. */
  predicate Distinct(ids: seq<Int32>)
  {
    forall j, m | 0 <= j < m < |ids| :: ids[j] != ids[m]
  }

  /**
   `order` lists each key of the set exactly once: the order in which a
   loop over the map's key set or values visits the entries.
   */
  predicate Enumerates(order: seq<Int32>, keys: set<Int32>)
  {
    Distinct(order) && (forall k | k in keys :: k in order) && (forall k | k in order :: k in keys)
  }

  /** The same message sent on every connection of the map, one after the other in its iteration order. */
  function Broadcast(order: seq<Int32>, msg: Wire.Msg): (out: seq<Out>)
    ensures |out| == |order|
  {
    if |order| == 0 then [] else [Send(order[0], msg)] + Broadcast(order[1..], msg)
  }

  /** The j-th message of a broadcast goes to the j-th connection of the order. */
  lemma {:induction false} BroadcastAt(order: seq<Int32>, msg: Wire.Msg)
    ensures forall j | 0 <= j < |order| :: Broadcast(order, msg)[j] == Send(order[j], msg)
  {
    if |order| > 0 {
      BroadcastAt(order[1..], msg);
    }
  }

  /**
   Over an iteration order of the map, the broadcast reaches every
   connection and no other, and none twice.
   */
  lemma BroadcastReaches(order: seq<Int32>, keys: set<Int32>, msg: Wire.Msg)
    requires Enumerates(order, keys)
    ensures forall k :: Send(k, msg) in Broadcast(order, msg) <==> k in keys
    ensures forall o | o in Broadcast(order, msg) :: o.Send? && o.msg == msg
    ensures Distinct(order) ==> forall j, m | 0 <= j < m < |order| ::
              Broadcast(order, msg)[j] != Broadcast(order, msg)[m]
  {
    var out := Broadcast(order, msg);
    BroadcastAt(order, msg);
    forall k | k in keys ensures Send(k, msg) in out {
      var j :| 0 <= j < |order| && order[j] == k;
      assert out[j] == Send(k, msg);
    }
  }

  /** `head` is the first part of `out`. */
  predicate StartsWith(out: seq<Out>, head: seq<Out>)
  {
    |out| >= |head| && out[..|head|] == head
  }

  /** `tail` is the last part of `out`. */
  predicate EndsWith(out: seq<Out>, tail: seq<Out>)
  {
    |out| >= |tail| && out[|out| - |tail|..] == tail
  }

  /** A broadcast at the end of a list of effects reaches every enumerated connection. */
  lemma BroadcastLast(out: seq<Out>, order: seq<Int32>, keys: set<Int32>, msg: Wire.Msg)
    requires Enumerates(order, keys)
    ensures EndsWith(out, Broadcast(order, msg)) ==> forall k | k in keys :: Send(k, msg) in out
  {
    if EndsWith(out, Broadcast(order, msg)) {
      BroadcastReaches(order, keys, msg);
      forall k | k in keys ensures Send(k, msg) in out {
        assert Send(k, msg) in out[|out| - |order|..];
      }
    }
  }

  /** A peer record keeps the id, host and port it was constructed with. */
  predicate Fixed(d: PeerData, e: PeerData)
  {
    e.id == d.id && e.host == d.host && e.port == d.port
  }

  /** The parts of the state a message handler never changes. */
  predicate SameShape(s: State, t: State)
  {
    && t.self == s.self && t.preferred == s.preferred && t.fileSize == s.fileSize
    && t.peers.Keys == s.peers.Keys && t.conns.Keys == s.conns.Keys
    && (forall k | k in s.peers :: Fixed(s.peers[k], t.peers[k]))
    && (forall k | k in s.conns :: t.conns[k].id == s.conns[k].id)
    && |t.chunks| == |s.chunks|
  }

  /** `updateFileStatusForPeer`: one more peer holds the file; nothing else changes. */
  function Bump(s: State): (t: State)
    ensures t.having == s.having + 1
    ensures t.(having := s.having) == s
  {
    s.(having := s.having + 1)
  }

  /** Replace one connection record. */
  function SetConn(s: State, c: Int32, conn: Connection): (t: State)
    requires c in s.conns
    ensures t.conns.Keys == s.conns.Keys && t.conns[c] == conn
    ensures forall k | k in s.conns && k != c :: t.conns[k] == s.conns[k]
  {
    s.(conns := s.conns[c := conn])
  }

  /** Replace one peer record. */
  function SetPeer(s: State, id: Int32, d: PeerData): (t: State)
    requires id in s.peers
    ensures t.peers.Keys == s.peers.Keys && t.peers[id] == d
    ensures forall k | k in s.peers && k != id :: t.peers[k] == s.peers[k]
  {
    s.(peers := s.peers[id := d])
  }

  /**
   Start-up of a peer (`calculateAndAssignBitfield`, then `chopFileIntoPieces`):
   the local bitfield gets one entry per piece, each equal to the configured
   hasFile flag, and the counter starts at 1 if that flag is 1. A peer whose
   flag is 0 gets an empty slot per piece; any other flag means the file is
   on disk: `file` holds its first fileSize bytes, it is cut into pieces, the
   chunk count rises by the number of pieces and hasFile becomes 1 when the
   count reaches the bitfield length on the way.
   */
  function Setup(self: Int32, preferred: Int32, fileSize: nat, pieceSize: nat,
                 peers: map<Int32, PeerData>, file: seq<Byte>): (s: State)
    requires pieceSize > 0 && fileSize + pieceSize - 1 <= 0x7FFF_FFFF
    requires self in peers
    requires |file| == fileSize
    ensures Valid(s) && s.conns == map[]
    ensures s.peers.Keys == peers.Keys
    ensures forall k | k in peers && k != self :: s.peers[k] == peers[k]
    ensures |LocalBits(s)| == Pieces.PieceCount(fileSize, pieceSize)
    ensures forall j | 0 <= j < |LocalBits(s)| :: LocalBits(s)[j] == peers[self].hasFile
    ensures s.having == (if peers[self].hasFile == HAS_FILE then 1 else 0)
    ensures peers[self].hasFile == NO_FILE ==> forall j | 0 <= j < |s.chunks| :: s.chunks[j].None?
    ensures Fixed(peers[self], Local(s))
    ensures peers[self].hasFile == NO_FILE ==>
              Local(s).hasFile == NO_FILE && Local(s).chunkCount == peers[self].chunkCount
    ensures peers[self].hasFile != NO_FILE ==> s.chunks == Pieces.Stored(Pieces.Chunks(file, pieceSize))
    ensures peers[self].hasFile != NO_FILE ==> Pieces.Reassemble(s.chunks, fileSize) == Some(file)
    ensures peers[self].hasFile != NO_FILE ==>
              Local(s).chunkCount == peers[self].chunkCount + Pieces.PieceCount(fileSize, pieceSize)
    ensures peers[self].hasFile != NO_FILE ==>
              forall k | 0 <= k < |s.chunks| :: s.chunks[k] == Some(Pieces.ChunkAt(file, pieceSize, k))
    ensures peers[self].hasFile != NO_FILE && 0 <= peers[self].chunkCount < Pieces.PieceCount(fileSize, pieceSize) ==>
              Local(s).hasFile == HAS_FILE
    ensures peers[self].hasFile != NO_FILE && !(0 <= peers[self].chunkCount < Pieces.PieceCount(fileSize, pieceSize)) ==>
              Local(s).hasFile == peers[self].hasFile
    ensures peers[self].hasFile != NO_FILE && peers[self].chunkCount == 0 && fileSize > 0 ==>
              Local(s).hasFile == HAS_FILE
  {
    var d := peers[self];
    var n := Pieces.PieceCount(fileSize, pieceSize);
    var bits: JavaArray<Int32> := seq(n, _ => d.hasFile);
    var having := if d.hasFile == HAS_FILE then 1 else 0;
    if d.hasFile == NO_FILE then
      State(self, preferred, fileSize, peers[self := d.(bitfield := Some(bits))], map[],
            seq(n, _ => None), having)
    else
      var count := d.chunkCount + n;
      var flag := if d.chunkCount < n <= count then HAS_FILE else d.hasFile;
      var chunks := Pieces.Stored(Pieces.Chunks(file, pieceSize));
      Pieces.ReassembleChopped(file, pieceSize);
      State(self, preferred, fileSize,
            peers[self := d.(bitfield := Some(bits), chunkCount := count, hasFile := flag)], map[],
            chunks, having)
  }
}

=== FILE: transfer.dfy ===
/**
 How the pieces of a file travel between two peers: a REQUEST frame is read
 by the owner's receive loop and answered with the requested chunk, the
 PIECE frame is read by the downloader and stored in the same slot, and a
 downloader that has stored every piece, in whatever order and however
 often, reassembles and writes exactly the owner's file.
 */
module Transfer {
  import opened JavaTypes
  import opened MessageTypes
  import opened Wire
  import opened Swarm
  import Pieces
  import Handlers
  import Handshakes
  import Session

  /** A REQUEST for a piece the owner holds is answered with that piece, and nothing else changes. */
  lemma RequestServed(owner: State, c: Int32, i: Int32, rest: seq<Byte>, measured: real, pick: nat, order: seq<Int32>)
    requires Ready(owner) && c in owner.conns && Enumerates(order, owner.conns.Keys)
    requires 0 <= i < |owner.chunks| && owner.chunks[i].Some?
    ensures var f := ReadFrame(Encode(RequestMsg(i)) + rest);
            && f.Received? && f.kind == Request && f.rest == rest && |f.payload| <= 0x7FFF_FFFF
            && Handlers.Dispatch(owner, c, f.kind, f.payload, measured, pick, order)
               == Step(owner, [Send(c, PieceMsg(i, owner.chunks[i].value))], Running)
  {
    EncodeRoundTrip(RequestMsg(i), rest);
    IndexFrameRoundTrip(Request, i, rest);
  }

  /**
   The owner's receive loop, before the swarm is complete, answers a REQUEST
   frame with the piece as its first message and then carries on with the
   rest of the stream from the same state.
   */
  lemma LoopServesRequest(owner: State, c: Int32, i: Int32, rest: seq<Byte>, order: seq<Int32>,
                          draw: nat -> Session.Draw, n: nat)
    requires Ready(owner) && c in owner.conns && Enumerates(order, owner.conns.Keys)
    requires owner.having < |owner.peers|
    requires 0 <= i < |owner.chunks| && owner.chunks[i].Some?
    ensures var u := Session.Loop(owner, c, rest, order, draw, n + 1);
            Session.Loop(owner, c, Encode(RequestMsg(i)) + rest, order, draw, n)
              == Step(u.s, [Send(c, PieceMsg(i, owner.chunks[i].value))] + u.out, u.status)
  {
    RequestServed(owner, c, i, rest, draw(n).rate, draw(n).pick, order);
  }

  /**
   A PIECE frame is read back and handled to its end exactly when
   Handlers.PieceRuns holds; then its data is in its slot, its bit is set
   and every connection is sent HAVE for it.
   */
  lemma PieceReceived(s: State, c: Int32, i: Int32, data: seq<Byte>, rest: seq<Byte>,
                      measured: real, pick: nat, order: seq<Int32>)
    requires Ready(s) && c in s.conns && Enumerates(order, s.conns.Keys)
    requires Fits(PieceMsg(i, data))
    ensures var f := ReadFrame(Encode(PieceMsg(i, data)) + rest);
            && f.Received? && f.kind == Piece && f.rest == rest && |f.payload| <= 0x7FFF_FFFF
            && var r := Handlers.Dispatch(s, c, f.kind, f.payload, measured, pick, order);
               && (r.status == Running <==> Handlers.PieceRuns(s, c, i, data))
               && (r.status == Running ==>
                     && r.s.chunks == s.chunks[i := Some(data)]
                     && LocalBits(r.s) == LocalBits(s)[i := HAS_FILE]
                     && forall k | k in s.conns :: Send(k, HaveMsg(i)) in r.out)
  {
    PieceReadBack(i, data, rest);
    PieceFrameRoundTrip(i, data, rest);
    PieceStored(s, c, i, data, measured, pick, order);
  }

  /** The PIECE handler on the payload of a PIECE frame: the same, without the frame. */
  lemma PieceStored(s: State, c: Int32, i: Int32, data: seq<Byte>, measured: real, pick: nat, order: seq<Int32>)
    requires Ready(s) && c in s.conns && Enumerates(order, s.conns.Keys)
    requires |IntBytes(i) + data| <= 0x7FFF_FFFF
    requires IntAt(IntBytes(i) + data, 0) == i && (IntBytes(i) + data)[INT_SIZE..] == data
    ensures var r := Handlers.Dispatch(s, c, Piece, IntBytes(i) + data, measured, pick, order);
            && (r.status == Running <==> Handlers.PieceRuns(s, c, i, data))
            && (r.status == Running ==>
                  && r.s.chunks == s.chunks[i := Some(data)]
                  && LocalBits(r.s) == LocalBits(s)[i := HAS_FILE]
                  && forall k | k in s.conns :: Send(k, HaveMsg(i)) in r.out)
  {
    var r := Handlers.OnPiece(s, c, IntBytes(i) + data, measured, pick, order);
    assert Handlers.Dispatch(s, c, Piece, IntBytes(i) + data, measured, pick, order) == r;
  }

  /**
   An owner started by Setup, once a connection to peer c is registered,
   answers REQUEST(i) for any piece i with bytes [iP, min((i + 1)P, S)) of
   its file.
   */
  lemma OwnerServesFile(self: Int32, preferred: Int32, fileSize: nat, pieceSize: nat,
                        peers: map<Int32, PeerData>, file: seq<Byte>, c: Int32, i: Int32,
                        rest: seq<Byte>, measured: real, pick: nat)
    requires pieceSize > 0 && fileSize + pieceSize - 1 <= 0x7FFF_FFFF
    requires self in peers && |file| == fileSize && peers[self].hasFile != NO_FILE
    requires 0 <= i < Pieces.PieceCount(fileSize, pieceSize)
    ensures var s := Handshakes.Register(Setup(self, preferred, fileSize, pieceSize, peers, file), c, c);
            var f := ReadFrame(Encode(RequestMsg(i)) + rest);
            && f.Received? && f.kind == Request && f.rest == rest && |f.payload| <= 0x7FFF_FFFF
            && Handlers.Dispatch(s, c, f.kind, f.payload, measured, pick, [c])
               == Step(s, [Send(c, PieceMsg(i, Pieces.ChunkAt(file, pieceSize, i as nat)))], Running)
  {
    var s := Handshakes.Register(Setup(self, preferred, fileSize, pieceSize, peers, file), c, c);
    assert s.conns.Keys == {c};
    RequestServed(s, c, i, rest, measured, pick, [c]);
  }

  /**
   The storing part of PIECE applied to chunk idx[0] of `file`, then
   idx[1], and so on: what a downloader's store holds after receiving those
   pieces of the owner's file.
   */
  function Deliver(s: State, file: seq<Byte>, piece: nat, idx: seq<Int32>): (r: State)
    requires Ready(s) && piece > 0
    requires |s.chunks| == |LocalBits(s)| == Pieces.PieceCount(|file|, piece)
    requires forall j | 0 <= j < |idx| :: 0 <= idx[j] < |s.chunks|
    ensures Ready(r) && r.fileSize == s.fileSize
    ensures |r.chunks| == |s.chunks| && |LocalBits(r)| == |LocalBits(s)|
    ensures forall j | 0 <= j < |s.chunks| && j in idx ::
              r.chunks[j] == Some(Pieces.ChunkAt(file, piece, j)) && LocalBits(r)[j] == HAS_FILE
    ensures forall j | 0 <= j < |s.chunks| && j !in idx ::
              r.chunks[j] == s.chunks[j] && LocalBits(r)[j] == LocalBits(s)[j]
    decreases |idx|
  {
    if |idx| == 0 then s
    else
      var t := Handlers.Store(s, idx[0], Pieces.ChunkAt(file, piece, idx[0] as nat)).value;
      var r := Deliver(t, file, piece, idx[1..]);
      assert forall j :: j in idx <==> j == idx[0] || j in idx[1..];
      r
  }

  /**
   Pieces received in any order, with repeats, as long as every index comes
   at least once: the store then holds exactly the owner's chunks, every
   local bit is 1, and the completion check writes the owner's file.
   */
  lemma DownloadComplete(s: State, file: seq<Byte>, piece: nat, idx: seq<Int32>)
    requires Ready(s) && piece > 0
    requires |s.chunks| == |LocalBits(s)| == Pieces.PieceCount(|file|, piece)
    requires forall j | 0 <= j < |idx| :: 0 <= idx[j] < |s.chunks|
    requires forall j | 0 <= j < |s.chunks| :: j in idx
    requires s.fileSize == |file|
    ensures Deliver(s, file, piece, idx).chunks == Pieces.Stored(Pieces.Chunks(file, piece))
    ensures Ones(LocalBits(Deliver(s, file, piece, idx))) == |s.chunks|
    ensures Handlers.Complete(Deliver(s, file, piece, idx)).Some?
    ensures Handlers.Complete(Deliver(s, file, piece, idx)).value.out == [WriteFile(file)]
  {
    var r := Deliver(s, file, piece, idx);
    assert r.chunks == Pieces.Stored(Pieces.Chunks(file, piece));
    OnesFull(LocalBits(r));
    Pieces.ReassembleChopped(file, piece);
  }

  /**
   After such a download the downloader's store is slot for slot the store
   of an owner of the same file started by Setup.
   */
  lemma DownloadMatchesOwner(s: State, file: seq<Byte>, piece: nat, idx: seq<Int32>,
                             self: Int32, preferred: Int32, peers: map<Int32, PeerData>)
    requires Ready(s) && piece > 0
    requires |s.chunks| == |LocalBits(s)| == Pieces.PieceCount(|file|, piece)
    requires forall j | 0 <= j < |idx| :: 0 <= idx[j] < |s.chunks|
    requires forall j | 0 <= j < |s.chunks| :: j in idx
    requires s.fileSize == |file| && |file| + piece - 1 <= 0x7FFF_FFFF
    requires self in peers && peers[self].hasFile != NO_FILE
    ensures Deliver(s, file, piece, idx).chunks == Setup(self, preferred, |file|, piece, peers, file).chunks
  {
    DownloadComplete(s, file, piece, idx);
  }
}

=== FILE: wire.dfy ===
/**
 The wire codec of MessageHandler and Message: the 32-byte handshake, the
 length-prefixed frame, the HAVE/REQUEST/BITFIELD/PIECE payloads, and the
 frame reader of the receive loop.

 A frame is a 4-byte big-endian length L followed by L bytes: one type code
 byte and L - 1 payload bytes. A BITFIELD payload carries one 4-byte int per
 piece, not a packed bit vector.
 */
module Wire {
  import opened JavaTypes
  import opened MessageTypes

  /** Size of a handshake (MessageHandler.MESSAGE_SIZE, AppConstants.BYTE_SIZE). */
  const HANDSHAKE_SIZE: nat := 32

  /** AppConstants.HANDSHAKE_MESSAGE_HEADER, "P2PFILESHARINGPROJ", as its ASCII bytes. */
  const HEADER: seq<Byte> :=
    [0x50, 0x32, 0x50, 0x46, 0x49, 0x4C, 0x45, 0x53, 0x48,
     0x41, 0x52, 0x49, 0x4E, 0x47, 0x50, 0x52, 0x4F, 0x4A]

  /** AppConstants.HANDSHAKE_MESSAGE_ZERO_BITS: ten ASCII '0' characters, not zero bytes. */
  const PADDING: seq<Byte> := [0x30, 0x30, 0x30, 0x30, 0x30, 0x30, 0x30, 0x30, 0x30, 0x30]

  /** Offset of the sender id inside a handshake (`32 - 4`). */
  const ID_OFFSET: nat := 28

  /** Largest length prefix for which `new byte[size + 4]` does not overflow. */
  const MAX_FRAME_SIZE: int := 0x7FFF_FFFF - 4

  lemma Concat3(a: seq<Byte>, b: seq<Byte>, c: seq<Byte>)
    ensures Concat([a, b, c]) == a + b + c
  {
    assert Concat([c]) == c by {
      assert [c][1..] == [];
    }
    assert Concat([b, c]) == b + c by {
      assert [b, c][1..] == [c];
    }
    assert [a, b, c][1..] == [b, c];
  }

  /**
   `getByteArrayMessage`: copies the parts one after another into a fresh
   32-byte array; bytes past the last part stay zero.
   */
  function Pack32(parts: seq<seq<Byte>>): (r: seq<Byte>)
    requires |Concat(parts)| <= HANDSHAKE_SIZE
    ensures |r| == HANDSHAKE_SIZE
    ensures r[..|Concat(parts)|] == Concat(parts)
    ensures forall j | |Concat(parts)| <= j < HANDSHAKE_SIZE :: r[j] == 0
  {
    Concat(parts) + Zeros(HANDSHAKE_SIZE - |Concat(parts)|)
  }

  /**
   `createHandshakeMessage(id)`: the 18-byte header, ten '0' bytes, then the
   id big-endian, filling exactly 32 bytes.
   */
  function Handshake(id: Int32): (r: seq<Byte>)
    ensures |r| == HANDSHAKE_SIZE
    ensures r[..18] == HEADER
    ensures forall j | 18 <= j < ID_OFFSET :: r[j] == '0' as int
    ensures IntAt(r, ID_OFFSET) == id
  {
    var parts := [HEADER, PADDING, IntBytes(id)];
    Concat3(HEADER, PADDING, IntBytes(id));
    var r := Pack32(parts);
    assert r[ID_OFFSET..ID_OFFSET + INT_SIZE] == IntBytes(id);
    IntBytesOfRead(r, ID_OFFSET);
    IntBytesInjective(IntAt(r, ID_OFFSET), id);
    r
  }

  /**
   The id a peer announces: `acceptMessage` reads exactly 32 bytes (fewer is
   an end-of-stream error, None) and the id is the int at offset 28. The
   header and padding are not checked.
   */
  function HandshakeId(incoming: seq<Byte>): (r: Option<Int32>)
    ensures r.Some? <==> |incoming| >= HANDSHAKE_SIZE
  {
    if |incoming| < HANDSHAKE_SIZE then None else Some(IntAt(incoming, ID_OFFSET))
  }

  /** Reading a handshake recovers the id it was built with. */
  lemma HandshakeRoundTrip(id: Int32, rest: seq<Byte>)
    ensures HandshakeId(Handshake(id) + rest) == Some(id)
  {
    var h := Handshake(id);
    assert (h + rest)[ID_OFFSET..ID_OFFSET + INT_SIZE] == h[ID_OFFSET..ID_OFFSET + INT_SIZE];
    IntBytesOfRead(h + rest, ID_OFFSET);
    IntBytesOfRead(h, ID_OFFSET);
    IntBytesInjective(IntAt(h + rest, ID_OFFSET), id);
  }

  /**
   `constructMessage(size, t, content)`: a `size + 4` byte array holding the
   length prefix `size`, the code of `t`, then `content`; the rest stays zero.
   A `null` content is the empty sequence.
   */
  function Frame(size: int, t: MsgType, content: seq<Byte>): (r: seq<Byte>)
    requires 1 <= size <= MAX_FRAME_SIZE
    requires |content| <= size - 1
    ensures |r| == size + INT_SIZE
    ensures IntAt(r, 0) == size
    ensures FromByte(r[INT_SIZE]) == t
    ensures r[INT_SIZE + 1..INT_SIZE + 1 + |content|] == content
    ensures forall j | INT_SIZE + 1 + |content| <= j < |r| :: r[j] == 0
  {
    var r := IntBytes(size) + [Code(t)] + content + Zeros(size - 1 - |content|);
    assert r[..INT_SIZE] == IntBytes(size);
    IntBytesOfRead(r, 0);
    IntBytesInjective(IntAt(r, 0), size);
    CodeRoundTrip(t);
    r
  }

  /** A frame with no payload (`constructMessage(1, t, null)`): CHOKE, UNCHOKE, INTERESTED, NOT_INTERESTED, EXIT. */
  function Control(t: MsgType): (r: seq<Byte>)
    ensures |r| == 5
  {
    Frame(1, t, [])
  }

  /** A HAVE or REQUEST frame: length 5, then the piece index big-endian. */
  function IndexFrame(t: MsgType, index: Int32): (r: seq<Byte>)
    ensures |r| == 9
  {
    Frame(INT_SIZE + 1, t, IntBytes(index))
  }

  /** The bitfield entries, each as a 4-byte big-endian int. */
  function IntsBytes(bits: seq<Int32>): (r: seq<Byte>)
    ensures |r| == INT_SIZE * |bits|
  {
    if |bits| == 0 then [] else IntBytes(bits[0]) + IntsBytes(bits[1..])
  }

  /** Entry j of a bitfield sits at bytes 4j .. 4j + 4 of its encoding. */
  lemma {:induction false} IntsBytesAt(bits: seq<Int32>, j: nat)
    requires j < |bits|
    ensures IntsBytes(bits)[INT_SIZE * j..INT_SIZE * j + INT_SIZE] == IntBytes(bits[j])
  {
    if j > 0 {
      IntsBytesAt(bits[1..], j - 1);
      var tail := IntsBytes(bits[1..]);
      assert IntsBytes(bits) == IntBytes(bits[0]) + tail;
      assert IntsBytes(bits)[INT_SIZE * j..INT_SIZE * j + INT_SIZE]
          == tail[INT_SIZE * (j - 1)..INT_SIZE * (j - 1) + INT_SIZE];
    }
  }

  /** `constructBitfieldMessage`: length `1 + 4 * |bits|`, code BITFIELD, one int per piece. */
  function BitfieldFrame(bits: seq<Int32>): (r: seq<Byte>)
    requires 1 + INT_SIZE * |bits| <= MAX_FRAME_SIZE
    ensures |r| == INT_SIZE + 1 + INT_SIZE * |bits|
  {
    Frame(1 + INT_SIZE * |bits|, Bitfield, IntsBytes(bits))
  }

  /** `createPieceMessage(index, piece)`: length `5 + |piece|`, code PIECE, the index, then the bytes. */
  function PieceFrame(index: Int32, piece: seq<Byte>): (r: seq<Byte>)
    requires INT_SIZE + 1 + |piece| <= MAX_FRAME_SIZE
    ensures |r| == 2 * INT_SIZE + 1 + |piece|
  {
    Frame(INT_SIZE + 1 + |piece|, Piece, IntBytes(index) + piece)
  }

  /** Why the receive loop could not read a frame; each ends the connection's thread. */
  datatype Fault =
    | EndOfStream     // readInt / readFully ran out of input
    | NegativeLength  // new byte[len] with len < 0
    | EmptyFrame      // inBuff[0] of a zero-length frame

  datatype Received =
    | Received(kind: MsgType, payload: seq<Byte>, rest: seq<Byte>)
    | Broken(fault: Fault)

  /**
   One iteration of the read in `Message.run`: a 4-byte length L, then exactly
   L bytes; the type is decoded from the first, the payload is the other L - 1.
   */
  function ReadFrame(stream: seq<Byte>): (r: Received)
    ensures r.Received? ==> |r.rest| + INT_SIZE + 1 <= |stream|
    ensures r.Received? ==> IntAt(stream, 0) == |r.payload| + 1
    ensures r.Received? ==> stream == stream[..INT_SIZE + 1] + r.payload + r.rest
    ensures r.Received? ==> r.kind == FromByte(stream[INT_SIZE])
    ensures r == Broken(EndOfStream) <==>
              |stream| < INT_SIZE || (IntAt(stream, 0) >= 0 && |stream| < INT_SIZE + IntAt(stream, 0))
  {
    if |stream| < INT_SIZE then Broken(EndOfStream)
    else
      var len := IntAt(stream, 0);
      if len < 0 then Broken(NegativeLength)
      else if |stream| < INT_SIZE + len then Broken(EndOfStream)
      else if len == 0 then Broken(EmptyFrame)
      else
        assert stream == stream[..INT_SIZE + 1] + stream[INT_SIZE + 1..INT_SIZE + len] + stream[INT_SIZE + len..];
        Received(FromByte(stream[INT_SIZE]), stream[INT_SIZE + 1..INT_SIZE + len], stream[INT_SIZE + len..])
  }

  /**
   Framing round trip: reading a frame built by `Frame` gives back its type and
   its content padded with the zero bytes `constructMessage` left behind, and
   leaves whatever followed it unread.
   */
  lemma FrameRoundTrip(size: int, t: MsgType, content: seq<Byte>, rest: seq<Byte>)
    requires 1 <= size <= MAX_FRAME_SIZE
    requires |content| <= size - 1
    ensures ReadFrame(Frame(size, t, content) + rest)
         == Received(t, content + Zeros(size - 1 - |content|), rest)
  {
    var f := Frame(size, t, content);
    var s := f + rest;
    assert s[..INT_SIZE] == f[..INT_SIZE];
    IntBytesOfRead(s, 0);
    IntBytesOfRead(f, 0);
    IntBytesInjective(IntAt(s, 0), IntAt(f, 0));
    assert s[INT_SIZE + 1..INT_SIZE + size] == f[INT_SIZE + 1..];
    assert f[INT_SIZE + 1..] == content + Zeros(size - 1 - |content|);
    assert s[INT_SIZE + size..] == rest;
  }

  /** When the content fills the frame, the payload read back is exactly the content. */
  lemma ExactFrameRoundTrip(size: int, t: MsgType, content: seq<Byte>, rest: seq<Byte>)
    requires 1 <= size <= MAX_FRAME_SIZE
    requires |content| == size - 1
    ensures ReadFrame(Frame(size, t, content) + rest) == Received(t, content, rest)
  {
    FrameRoundTrip(size, t, content, rest);
    assert content + Zeros(0) == content;
  }

  /**
   The receive side of BITFIELD: `len / 4` ints read one after another; a
   trailing partial int is ignored.
   */
  function DecodeInts(payload: seq<Byte>): (bits: seq<Int32>)
    ensures |bits| == |payload| / INT_SIZE
  {
    seq(|payload| / INT_SIZE, j requires 0 <= j < |payload| / INT_SIZE => IntAt(payload, INT_SIZE * j))
  }

  /** Bitfield round trip: decoding the payload recovers every entry. */
  lemma BitfieldPayloadRoundTrip(bits: seq<Int32>)
    ensures DecodeInts(IntsBytes(bits)) == bits
  {
    var p := IntsBytes(bits);
    forall j | 0 <= j < |bits| ensures DecodeInts(p)[j] == bits[j] {
      IntsBytesAt(bits, j);
      IntBytesOfRead(p, INT_SIZE * j);
      IntBytesInjective(IntAt(p, INT_SIZE * j), bits[j]);
    }
  }

  /** A whole BITFIELD frame read back yields the bitfield it was built from. */
  lemma BitfieldFrameRoundTrip(bits: seq<Int32>, rest: seq<Byte>)
    requires 1 + INT_SIZE * |bits| <= MAX_FRAME_SIZE
    ensures ReadFrame(BitfieldFrame(bits) + rest).Received?
    ensures ReadFrame(BitfieldFrame(bits) + rest).kind == Bitfield
    ensures IntAt(BitfieldFrame(bits), 0) == 1 + INT_SIZE * |bits|
    ensures DecodeInts(ReadFrame(BitfieldFrame(bits) + rest).payload) == bits
  {
    ExactFrameRoundTrip(1 + INT_SIZE * |bits|, Bitfield, IntsBytes(bits), rest);
    BitfieldPayloadRoundTrip(bits);
  }

  /** A whole PIECE frame read back yields its index and exactly its bytes. */
  lemma PieceFrameRoundTrip(index: Int32, piece: seq<Byte>, rest: seq<Byte>)
    requires INT_SIZE + 1 + |piece| <= MAX_FRAME_SIZE
    ensures IntAt(PieceFrame(index, piece), 0) == INT_SIZE + 1 + |piece|
    ensures ReadFrame(PieceFrame(index, piece) + rest)
         == Received(Piece, IntBytes(index) + piece, rest)
    ensures IntAt(IntBytes(index) + piece, 0) == index
    ensures (IntBytes(index) + piece)[INT_SIZE..] == piece
  {
    ExactFrameRoundTrip(INT_SIZE + 1 + |piece|, Piece, IntBytes(index) + piece, rest);
    var p := IntBytes(index) + piece;
    assert p[..INT_SIZE] == IntBytes(index);
    IntBytesOfRead(p, 0);
    IntBytesInjective(IntAt(p, 0), index);
  }

  /** A HAVE or REQUEST frame read back yields its type and index. */
  lemma IndexFrameRoundTrip(t: MsgType, index: Int32, rest: seq<Byte>)
    ensures ReadFrame(IndexFrame(t, index) + rest) == Received(t, IntBytes(index), rest)
    ensures IntAt(IntBytes(index), 0) == index
  {
    ExactFrameRoundTrip(INT_SIZE + 1, t, IntBytes(index), rest);
    IntRoundTrip(index);
  }

  /** A control frame read back yields its type and an empty payload. */
  lemma ControlRoundTrip(t: MsgType, rest: seq<Byte>)
    ensures ReadFrame(Control(t) + rest) == Received(t, [], rest)
  {
    ExactFrameRoundTrip(1, t, [], rest);
  }

  /** Big-endian value of the first n bytes. */
  function Prefix(b: seq<Byte>, n: nat): nat
    requires n <= |b|
  {
    if n == 0 then 0 else Prefix(b, n - 1) * 0x100 + b[n - 1]
  }

  lemma {:induction false} PrefixBound(b: seq<Byte>, n: nat)
    requires n <= 3 && n <= |b|
    ensures Prefix(b, n) < 0x100_0000
  {
    if n > 0 {
      PrefixBound(b, n - 1);
      if n == 1 {
        assert Prefix(b, 0) == 0;
      } else if n == 2 {
        assert Prefix(b, 1) < 0x100;
      } else {
        assert Prefix(b, 2) < 0x1_0000 by {
          assert Prefix(b, 1) < 0x100;
        }
      }
    }
  }

  /** `(index << 8) | (b & 0xFF)` on a Java int: the top byte falls off. */
  function ShiftIn(index: Int32, b: Byte): Int32
  {
    Signed((Unsigned(index) % 0x100_0000) * 0x100 + b)
  }

  lemma ShiftInSmall(index: Int32, b: Byte)
    requires Unsigned(index) < 0x100_0000
    ensures Unsigned(ShiftIn(index, b)) == Unsigned(index) * 0x100 + b
  {
  }

  /**
   The index loop of `handlePieceMessage`, which shifts the first four payload
   bytes in by hand; it reads the same int as `ByteBuffer.getInt`.
   */
  method PieceIndex(payload: seq<Byte>) returns (index: Int32)
    requires |payload| >= INT_SIZE
    ensures index == IntAt(payload, 0)
  {
    index := 0;
    var i := 0;
    while i < INT_SIZE
      invariant 0 <= i <= INT_SIZE
      invariant Unsigned(index) == Prefix(payload, i)
    {
      PrefixBound(payload, i);
      ShiftInSmall(index, payload[i]);
      index := ShiftIn(index, payload[i]);
      i := i + 1;
    }
    assert Prefix(payload, 1) == payload[0];
    assert Prefix(payload, 2) == payload[0] as int * 0x100 + payload[1];
    assert Prefix(payload, 3) == (payload[0] as int * 0x100 + payload[1]) * 0x100 + payload[2];
    assert Prefix(payload, INT_SIZE)
        == ((payload[0] as int * 0x100 + payload[1]) * 0x100 + payload[2]) * 0x100 + payload[3];
    assert Unsigned(IntAt(payload, 0)) == Unsigned(index);
  }

  /** A message the protocol engine sends, before it is turned into bytes. */
  datatype Msg =
    | Hello(id: Int32)                       // the handshake
    | Signal(t: MsgType)                     // a frame with no payload
    | HaveMsg(index: Int32)
    | RequestMsg(index: Int32)
    | BitfieldMsg(bits: seq<Int32>)
    | PieceMsg(index: Int32, data: seq<Byte>)

  /** The length prefix of the message fits in a Java `int` array size. */
  predicate Fits(m: Msg)
  {
    match m
    case BitfieldMsg(bits) => 1 + INT_SIZE * |bits| <= MAX_FRAME_SIZE
    case PieceMsg(_, data) => INT_SIZE + 1 + |data| <= MAX_FRAME_SIZE
    case _ => true
  }

  /** The bytes each message goes out as. */
  function Encode(m: Msg): (r: seq<Byte>)
    requires Fits(m)
    ensures m.Hello? ==> |r| == HANDSHAKE_SIZE
    ensures !m.Hello? ==> |r| >= INT_SIZE + 1 && IntAt(r, 0) == |r| - INT_SIZE
  {
    match m
    case Hello(id) => Handshake(id)
    case Signal(t) => Control(t)
    case HaveMsg(i) => IndexFrame(Have, i)
    case RequestMsg(i) => IndexFrame(Request, i)
    case BitfieldMsg(bits) => BitfieldFrame(bits)
    case PieceMsg(i, data) => PieceFrame(i, data)
  }

  /**
   How the handlers read a received frame: HAVE and REQUEST take the int at
   the front, BITFIELD one int per four bytes, PIECE an index then the data;
   the others carry nothing. None when the payload is too short for getInt.
   */
  function Parse(kind: MsgType, payload: seq<Byte>): (r: Option<Msg>)
    ensures r.None? <==> kind in {Have, Request, Piece} && |payload| < INT_SIZE
  {
    match kind
    case Have => if |payload| < INT_SIZE then None else Some(HaveMsg(IntAt(payload, 0)))
    case Request => if |payload| < INT_SIZE then None else Some(RequestMsg(IntAt(payload, 0)))
    case Piece => if |payload| < INT_SIZE then None else Some(PieceMsg(IntAt(payload, 0), payload[INT_SIZE..]))
    case Bitfield => Some(BitfieldMsg(DecodeInts(payload)))
    case _ => Some(Signal(kind))
  }

  /** A frame message whose type agrees with its shape. */
  predicate WellFormed(m: Msg)
  {
    Fits(m) && !m.Hello? && (m.Signal? ==> m.t !in {Have, Request, Bitfield, Piece})
  }

  /** Every frame the engine can send is read back by the receive loop as the same message. */
  lemma EncodeRoundTrip(m: Msg, rest: seq<Byte>)
    requires WellFormed(m)
    ensures ReadFrame(Encode(m) + rest).Received?
    ensures ReadFrame(Encode(m) + rest).rest == rest
    ensures Parse(ReadFrame(Encode(m) + rest).kind, ReadFrame(Encode(m) + rest).payload) == Some(m)
  {
    match m
    case Signal(t) => SignalReadBack(t, rest);
    case HaveMsg(i) => IndexReadBack(m, rest);
    case RequestMsg(i) => IndexReadBack(m, rest);
    case BitfieldMsg(bits) => BitfieldReadBack(bits, rest);
    case PieceMsg(i, data) => PieceReadBack(i, data, rest);
  }

  lemma SignalReadBack(t: MsgType, rest: seq<Byte>)
    requires WellFormed(Signal(t))
    ensures ReadFrame(Encode(Signal(t)) + rest) == Received(t, [], rest)
    ensures Parse(t, []) == Some(Signal(t))
  {
    ControlRoundTrip(t, rest);
  }

  lemma IndexReadBack(m: Msg, rest: seq<Byte>)
    requires m.HaveMsg? || m.RequestMsg?
    ensures var t := if m.HaveMsg? then Have else Request;
            && ReadFrame(Encode(m) + rest) == Received(t, IntBytes(m.index), rest)
            && Parse(t, IntBytes(m.index)) == Some(m)
  {
    IndexFrameRoundTrip(if m.HaveMsg? then Have else Request, m.index, rest);
  }

  lemma BitfieldReadBack(bits: seq<Int32>, rest: seq<Byte>)
    requires Fits(BitfieldMsg(bits))
    ensures ReadFrame(Encode(BitfieldMsg(bits)) + rest) == Received(Bitfield, IntsBytes(bits), rest)
    ensures Parse(Bitfield, IntsBytes(bits)) == Some(BitfieldMsg(bits))
  {
    ExactFrameRoundTrip(1 + INT_SIZE * |bits|, Bitfield, IntsBytes(bits), rest);
    BitfieldPayloadRoundTrip(bits);
  }

  lemma PieceReadBack(i: Int32, data: seq<Byte>, rest: seq<Byte>)
    requires Fits(PieceMsg(i, data))
    ensures ReadFrame(Encode(PieceMsg(i, data)) + rest) == Received(Piece, IntBytes(i) + data, rest)
    ensures Parse(Piece, IntBytes(i) + data) == Some(PieceMsg(i, data))
  {
    PieceFrameRoundTrip(i, data, rest);
  }
}
